=== FILE: README.md ===
# Secrétaire dentiste: the decision rules of the booking service

The service is a voice-agent back end for a dental practice. It sits in front
of the RDV Dentiste scheduling API and exposes a handful of endpoints: look up
a caller's appointments, cancel one, list free slots, book one, and suggest an
appointment type for a free-text reason. Every endpoint is a thin async
handler around a few pure rules. This project models those rules as total
functions over immutable datatypes. The remote API's replies are inputs.

Modules, in dependency order:

- `PyStr` (pystr.dfy): the Python string behaviour the handlers rely on. It
  covers `None`/empty-string truthiness, `a or b`, `str.lower()`, substring
  `in`, the first position of a character, cutting a string at the first
  occurrence of a character, and deleting or replacing one character
  (`replace`).
- `Normalise` (normalise.dfy): `normaliser_telephone`, `convertir_date` and
  `formater_heure`. Their documented examples are in `NormaliseExamples`
  (normalise_examples.dfy).
- `Records` (records.dfy): the projections `trouver_patients_par_telephone`
  and `trouver_rdvs_patient` apply to the API's patient and appointment
  records.
- `Cancellation` (cancellation.dfy): `annuler_rdv`. It covers the requested
  date, the choice of the appointment to cancel, the DELETE path, and how
  the reply is read.
- `Viewing` (viewing.dfy): `voir_rdv`, the listing of active appointments.
- `Availability` (availability.dfy): `consulter_disponibilites`. It covers
  the slot query and the parsing of slot start times.
- `Booking` (booking.dfy): `creer_rdv`. It covers the booking parameters,
  the PUT path, and how the reply is read.
- `Suggestion` (suggestion.dfy): `suggerer_type_rdv`, the keyword table and
  its fallback chain.

Cancellation is a single DELETE whose path is chosen by the first letter of
the appointment id.

The practitioner id is the constant `MC`, as in the source, so paths are
written out as `/schedules/MC/...`.

## Model

| member | source | states |
|---|---|---|
| Normalise.NormalisePhone | main.py:38-52 | Empty input comes back empty. The result never contains ASCII whitespace (U+001C to U+001F included), `-`, `.`, `(` or `)`, and is never longer than the input. |
| Normalise.StripRemovesSeparators | main.py:42 | Stripping leaves no separator, never lengthens the number, and leaves a separator-free number untouched. |
| Normalise.StripKeepsContent | main.py:42 | Stripping removes exactly the separators: every other character keeps its number of occurrences. |
| Normalise.StripConcat | main.py:42 | Stripping works character by character, so it distributes over concatenation and keeps the order of the digits. |
| Normalise.NormaliseIgnoresSeparators | main.py:42-52 | The prefix tests look only at the stripped number, so any input normalises exactly as its stripped form does. |
| Normalise.PlusPrefixRewritten | main.py:42-46 | An input whose stripped form is `+33` followed by a rest, separators anywhere, becomes `0` followed by that rest. |
| Normalise.DoubleZeroPrefixRewritten | main.py:42-48 | An input whose stripped form is `0033` followed by a rest becomes `0` followed by that rest. |
| Normalise.BarePrefixRewritten | main.py:42-50 | An input whose stripped form is a bare `33` followed by a rest loses the `33` only when the stripped number is longer than 10 characters. Otherwise the stripped number is kept as is. |
| Normalise.NationalIsFixed | main.py:38-52 | A national number is returned unchanged. A national number has no separators and starts with `0` followed by anything but a second `0`. |
| Normalise.SeparatedNationalIsStripped | main.py:42-52 | An input whose stripped form is a national number, such as `06.83.79.14.43`, comes out as that stripped form. |
| Normalise.UnprefixedIsStripped | main.py:42-52 | An input whose stripped form starts with none of `+33`, `0033`, or `33` on more than ten characters (a foreign number such as `+32 2 555 12 12`, say) comes out as that stripped form. |
| Normalise.NormaliseNotIdempotent | main.py:45-48 | Normalising is not idempotent in general: `+33033` followed by a separator-free rest becomes `0033` and the rest, and a second pass turns that into `0` and the rest. |
| Normalise.NormaliseIdempotentOnNational | main.py:38-52 | Normalising twice equals normalising once whenever the first pass yields a national number or the empty string. |
| Normalise.RewriteKeepsNational | main.py:44-50 | A number starting with `0` and then a non-`0` matches none of the three prefix rewrites. |
| NormaliseExamples.PhoneExampleInternational | main.py:35-36 | `+33683791443` normalises to `0683791443`. |
| NormaliseExamples.PhoneExampleDoubleZero | main.py:35-36 | `0033683791443` normalises to `0683791443`. |
| NormaliseExamples.PhoneExampleSpaced | main.py:35-36 | `06 83 79 14 43` normalises to `0683791443`. |
| NormaliseExamples.PhoneExampleNational | main.py:35-36 | `0683791443` is already normalised. |
| NormaliseExamples.StripFiveGroups | main.py:42 | Five two-character groups separated by single spaces strip to their ten characters, in order. |
| Normalise.ConvertDate | main.py:60-77 | An ISO date is returned unchanged. `DD/MM/YYYY` and `DD-MM-YYYY` become the ISO date built from the same year, month and day digits. Anything else, the empty string included, is returned unchanged. |
| Normalise.ConvertDateResult | main.py:60-77 | The result is an ISO date or the input itself. |
| Normalise.ConvertDateIdempotent | main.py:60-77 | Converting a converted date changes nothing. |
| Normalise.DayFirst | main.py:68-75 | Writing an ISO date day-first, with either separator, gives a string of the accepted day-first shape. |
| Normalise.ConvertDateRoundTrip | main.py:68-75 | Converting the day-first rendering of an ISO date, with `/` or `-`, gives back that ISO date. |
| NormaliseExamples.DateExampleSlash | main.py:57-58 | `15/03/2025` becomes `2025-03-15`. |
| NormaliseExamples.DateExampleDash | main.py:57-58 | `15-03-2025` becomes `2025-03-15`. |
| NormaliseExamples.DateExampleUnchanged | main.py:63-65 | An ISO date and free text (`demain`) both pass through unchanged. |
| Normalise.FormatHour | main.py:80-84 | A four-character code becomes five characters: its first two, then `h`, then its last two. Every other length is returned unchanged. |
| Normalise.FormatHourRoundTrip | main.py:82-83 | Removing the `h` from a formatted four-character code gives back the code. |
| Normalise.FormatHourIdempotent | main.py:80-84 | Formatting a formatted hour changes nothing, because the result never has four characters. |
| NormaliseExamples.HourExample | main.py:81 | `0930` is shown as `09h30`. |
| PyStr.OrPicksTruthy | main.py:156 | `a or b` yields `a` when `a` is a non-empty string and `b` otherwise, and it is truthy exactly when one of them is. |
| PyStr.Lower | main.py:345 | Lower-casing keeps the length, maps each character on its own, and leaves no capital letter. |
| PyStr.LowerIdempotent | main.py:345 | Lower-casing twice is the same as lower-casing once. |
| PyStr.SplitAtJoin | main.py:492 | Cutting a string at the first occurrence of a character, when the first part does not contain that character, gives back both parts. This is the step the booking-path round trip relies on. |
| Records.ProjectPatient | main.py:156-161 | A projected patient always has a non-empty id. The id is `identifier` when that is truthy and `id` otherwise. The last name is `lastName`, falling back to `family`. The first name is `firstName`, falling back to `given`. |
| Records.KeepIdentified | main.py:155-163 | Every kept patient has a non-empty id and is the projection of some identified entry. Every entry with a truthy `identifier` or `id` is kept. At most as many patients come out as went in. |
| Records.KeepIdentifiedConcat | main.py:155-163 | The filter distributes over concatenation, so reply order is preserved. |
| Records.PatientsOf | main.py:153-165 | A reply without a `Patients` list gives no patient. Otherwise every identified entry is projected and every result has an id. |
| Records.AppointmentsOf | main.py:172-186 | A reply that is not an array gives no appointment. An array gives one record per entry, in order, each the projection of its entry and attributed to the patient asked about. |
| Records.ProjectionFields | main.py:175-183 | Every projected field: a missing `status` reads as `Confirmé`, and an explicit null as no status. The id is `rdvId`, falling back to `id`. The hour is `start`, falling back to `hour`. `date` and `duration` pass through. The type is the `display` of a `service_type` object. It is absent when there is no `service_type`, and it is the record's own `type` when `service_type` is some other value. |
| Viewing.Flatten | main.py:268-271 | An appointment is in the collected list exactly when it belongs to one of the patients' lists. |
| Viewing.FlattenConcat | main.py:268-271 | Collecting distributes over concatenation of the patients' lists. |
| Viewing.FlattenSingleton | main.py:271 | One patient's list is collected whole, in order, duplicates included. |
| Viewing.ActiveOnly | main.py:274 | The filter keeps exactly the appointments whose status is the string `active`, and never adds any. |
| Viewing.ActiveOnlyConcat | main.py:274 | The filter distributes over concatenation. |
| Viewing.ListedInPatientOrder | main.py:268-274 | The active appointments of several patients are those of the first patients followed by those of the rest. The listing therefore keeps the patients' order and each patient's order. |
| Viewing.ViewAppointments | main.py:261-300 | With no patient, the answer is the "no patient" reply. Otherwise a view is listed exactly when it shows an active appointment of one of the patients. The listing has one view per active appointment, in order, duplicates included, and the count equals the number listed. |
| Viewing.ActiveQualifiesForCancellation | main.py:340-355 | An appointment the listing shows (status `active`, line 274) is one the cancellation accepts when no date is given. |
| Viewing.ListedImpliesCancellable | main.py:340-359 | When the listing of line 274 shows at least one appointment, a cancellation without a date finds a target. |
| Viewing.DefaultStatusHiddenButCancellable | main.py:183 | A record without `status` gets the default status `Confirmé`. The listing (line 274) does not show it, yet the cancellation (lines 345-347) accepts it. |
| Cancellation.TargetDate | main.py:324-327 | No date is used when `date_rdv` is absent, empty or starts with `<` or `{`. Otherwise the date used is the converted `date_rdv`, which is non-empty and not a placeholder. |
| Cancellation.TargetDateExamples | main.py:325 | An absent value, the empty string, `<date_rdv>` and `{date_rdv}` all mean no date. |
| Cancellation.TargetDateDayFirst | main.py:327 | A day-first date is compared in its ISO form. |
| Cancellation.SelectTarget | main.py:340-357 | The chosen appointment is not cancelled and, when a date is asked, has that date. No earlier appointment, in patient-then-appointment order, qualifies. Nothing is chosen exactly when no appointment qualifies. |
| Cancellation.FirstQualifyingUnique | main.py:342-357 | At most one position is the first qualifying one, so the target is determined by the lists and the date. |
| Cancellation.CancelPath | main.py:368-371 | An id starting with `D` or `d` is sent to the appointments path and any other id to the appointment-requests path. The path ends with `/`. |
| Cancellation.CancelPathRoundTrip | main.py:368-371 | The path can be read back into exactly the id and the resource kind its first letter selects, so the two kinds of path never collide. |
| Cancellation.PrefixesDiffer | main.py:369-371 | The two path prefixes differ at a fixed position. |
| Cancellation.Classify | main.py:377-393 | The reply is a success exactly when no truthy error message can be extracted from it. It is "already cancelled" exactly when such a message contains, after lower-casing, `already cancelled` or `déjà annulé`. Any other failure carries the non-empty message. |
| Cancellation.CancelledExactly | main.py:377-383 | Success means the reply is not an object, or neither key holds a truthy value and `Error` is not an object. |
| Cancellation.LowerKeyTakesPrecedence | main.py:379 | A truthy `error` value decides the outcome, whatever `Error` holds. |
| Cancellation.ClassifyIgnoresCase | main.py:384 | Two messages that differ only in case are classified alike. |
| Cancellation.EmptyErrorObjectFails | main.py:380-383 | An empty `Error` object still fails, with its Python rendering `{}` as the message. |
| Cancellation.AlreadyCancelledExamples | main.py:381-384 | `text` is read before `message`, and both phrases are recognised in upper case, accented capitals included. |
| Cancellation.CancelAppointment | main.py:321-401 | With no patient, the answer is "no patient". The "nothing to cancel" answer comes exactly when no appointment of any patient qualifies, and it carries the date used. Otherwise the target is the first qualifying appointment, in patient-then-appointment order. A target without an id is reported as such. A target with an id is cancelled through its path, and the outcome is the classification of the reply. |
| Availability.ParseStartNone | main.py:442-443 | A start time yields no slot exactly when it contains no `T` (the source fails with an index error there). |
| Availability.ParseStartShape | main.py:442-448 | A parsed slot's date is the text before the first `T`, and the start begins with that date and then `T`. The display is at most five characters, and the code contains no colon. |
| Availability.ParseSplitsAtT | main.py:442-443 | For a date and a five-character time without `T`, the slot is built from exactly that date and time, whatever follows. |
| Availability.ParseWellFormedStart | main.py:442-448 | `D` + `T` + `HH:MM` + anything yields date `D`, code `HHMM` and display `HHhMM`. |
| Availability.SlotCodeFormatsToDisplay | main.py:444-448 | For a well-formed start, formatting the slot's code with the hour formatter gives its display. |
| Availability.StartsAreTheTruthyStarts | main.py:439-441 | The start times considered are exactly the non-empty `start` values of the slots. None is empty, and each comes from some slot. |
| Availability.StartsConcat | main.py:439-441 | Collecting start times distributes over concatenation, so slot order is kept. |
| Availability.ParseAll | main.py:439-449 | Parsing the list succeeds exactly when every start parses. The result then has one slot per start, in order, each the parse of its start. |
| Availability.QueryFor | main.py:417-430 | The start date is converted. The end date is the converted `date_fin` when that is truthy, otherwise the supplied seven-days-later date. `newPatient` is `1` exactly when the flag is true, and `0` otherwise. |
| Availability.AvailabilityOf | main.py:436-457 | The response exists exactly when every non-empty start parses. The slots are then the parsed starts, in order, and the count equals the number of slots and of non-empty starts. |
| Availability.AvailabilityFailsExactly | main.py:439-443 | The response fails exactly when some slot has a non-empty start without `T`. |
| Booking.LookupAppend | main.py:478-490 | Appending a parameter leaves every earlier key's value unchanged and adds only the new key. |
| Booking.AddIfTruthyLookup | main.py:485-490 | An optional parameter is present exactly when its value is truthy, and adding it changes no other key. |
| Booking.BaseParamsLookup | main.py:476-483 | The four base parameters are `firstName`, `lastName`, the normalised `mobile`, and `newPatient` as `1` or `0`. |
| Booking.ConvertDateNonEmpty | main.py:60-77 | Date conversion never turns a non-empty string into an empty one. |
| Booking.AddIfTruthyKeys | main.py:485-490 | Adding a key that is not there yet keeps every key distinct, leaves the earlier pairs in place, and adds at most that one key. |
| Booking.BookingParamsKeys | main.py:478-490 | The call carries between four and seven parameters with pairwise distinct keys. After the four base keys, only `email`, `birthDate` and `messagePatient` can follow. |
| Booking.BookingParamsContents | main.py:474-490 | The parameters start with the four base ones, no key occurs twice, and nothing beyond `email`, `birthDate` and `messagePatient` follows. `email` and `messagePatient` are present exactly when truthy. `birthDate` is present exactly when a birth date was given, and then holds the converted date. |
| Booking.BookingEndpointRoundTrip | main.py:492 | The booking path can be read back into the type, date and hour, provided none of them contains `/`. |
| Booking.RequestEndpointNamesConvertedDate | main.py:474-492 | The PUT path of a request names its type, its raw hour code and its date after `convertir_date` (line 474), not the date as written. |
| Booking.BookingEndpointExtendsSearch | main.py:492 | The booking path extends the slot-search path of the same type (line 432). |
| Booking.CreateAppointment | main.py:496-516 | The slot counts as taken exactly when `busy` is truthy, or the booking is neither done nor carries a truthy id. Otherwise the status is `Confirmé` when done and pending when not. The date is converted and the hour formatted. The patient is first name, space, last name. The id is `rdvId`, falling back to `idDemande`. |
| Booking.PendingBookingHasId | main.py:497-511 | A booking reported as pending always carries a truthy id. |
| Booking.BookedHourReadsBack | main.py:506 | The hour shown for a booking made with a four-character hour reads back to that hour. |
| Booking.BookedDateIsIso | main.py:474 | A booking made with an ISO or day-first date reports an ISO date. |
| Suggestion.AnyContained | main.py:671 | `any(kw in s for kw in keywords)` holds exactly when some keyword occurs in the string. |
| Suggestion.SuggestWith | main.py:669-690 | There is an answer exactly when some type is offered. If some category fires and some type suits it, the answer is the first suiting type of the first such category. Otherwise it is the first general type (consultation, visite, examen), and failing that the first type. |
| Suggestion.SuggestType | main.py:646-690 | The same, for the fixed keyword table and the lower-cased reason. |
| Suggestion.FirstHitUnique | main.py:670-679 | The first hit is unique, so the keyword answer is determined. |
| Suggestion.FirstGeneralUnique | main.py:682-686 | The first general type is unique. |
| Suggestion.KeywordNameSuits | main.py:674 | A type name mentioning one of a category's keywords suits that category. |
| Suggestion.UrgencyOutranks | main.py:657-679 | A reason mentioning an urgency keyword is answered with the first type suiting urgency, whatever other categories fire. |
| Suggestion.KeyIsKeyword | main.py:656-666 | Every category of the table lists its own key among its keywords. |
| Suggestion.SuitsByKeywordsAlone | main.py:656-675 | With this table, a type suits a category exactly when its name mentions one of the keywords, so the key test adds nothing. |

## Left out

- The HTTP client `call_rdvdentiste`, FastAPI routing, request headers, Pydantic validation and `uvicorn` startup are I/O and foreign libraries. Request fields are modelled as the values after the request models fill in their defaults. A missing `nouveau_patient` is therefore `Some(true)` in a booking request (main.py:228) and `false` in a slot query (main.py:215). `None` in a request field is an explicit `null`. The remote replies are parameters of the model: patient lists, appointment lists, and error or booking records.
- The order and timing of the awaited remote calls are not modelled. Each handler is modelled after its fetches, over their results.
- `Availability.QueryFor`: the default end date (the start plus seven days, computed with `datetime`) is not modelled. It is taken as the parameter `sevenDaysLater`, and a malformed start date, for which the source's `strptime` raises, is not modelled.
- The text of every French message is left out: the "no patient", "nothing to cancel", "slot taken" and success messages, and the `periode` string. Only the decisions that choose between them are modelled. The same applies to the echoed `telephone`, `type_rdv` and `motif` fields.
- `Normalise.NormalisePhone`: `\s` is taken as the ASCII characters it matches: space, tab, newline, carriage return, vertical tab, form feed and U+001C to U+001F. Python's non-ASCII whitespace (U+0085, U+00A0 and others) is not modelled.
- `Normalise.ConvertDate`: `\d` is taken as the ASCII digits. Python's Unicode digits are not modelled, and neither is `$` also matching before a final newline.
- `PyStr.Lower`: lower-casing covers ASCII and the Latin-1 capitals (U+00C0 to U+00DE, except U+00D7). That covers every keyword, status and phrase the source compares against. Full Unicode case mapping is not modelled.
- Values of unexpected JSON types are not modelled: a non-string `id`, `nom` or `start`, `null` in place of the `Patients` or `AvailableSlots` list, a `null` slot, and a non-object reply to the booking PUT. On these the source raises or behaves by accident. Each field is modelled as absent, null, or a string of the expected kind.
- `Cancellation.ErrorMessage`: `str()` of an error value that is neither a string nor an object (a number, a list) is not modelled. An object's rendering is an input `entries` string rather than Python's `repr` of the dictionary.
- `Records.ProjectPatient`: the `data` field, which carries the raw patient object along, is not modelled. No handler reads it.
- `Cancellation.CancelAppointment`: when the chosen appointment has no id, the source raises on `None.upper()` and the service answers with a server error. The model reports this as `MissingId` instead of leaving the case out.
- `Availability.AvailabilityOf`: a non-empty start without `T` makes the source raise an index error and answer with a server error. The model answers `None` for the whole reply.
- `rechercher_patient`, `lister_praticiens`, `lister_types_rdv`, the `info` and `debug` endpoints, the legacy aliases and the health check are outside the modelled core. For the suggestion, the list of types `lister_types_rdv` returns is an input.

=== FILE: availability.dfy ===
/**
 `consulter_disponibilites`: the query sent for free slots and the parsing of
 the slots the API returns.
 */
module Availability {
  import opened PyStr
  import opened Normalise
  import opened Records

  /** One slot of the reply; `start` is `None` when the key is absent or null. */
  datatype RawSlot = RawSlot(start: Option<string>)

  /** The reply: an object whose `AvailableSlots` array (absent counts as empty) is read, or a bare array. */
  datatype SlotsReply = SlotsObject(available: seq<RawSlot>) | SlotsArray(items: seq<RawSlot>)

  /** A parsed slot: its date, its `HHMM` code and its `HHhMM` display. */
  datatype Slot = Slot(date: string, heure: string, display: string)

  function SlotsOf(reply: SlotsReply): seq<RawSlot> {
    match reply
    case SlotsObject(available) => available
    case SlotsArray(items) => items
  }

  /**
   Splits one non-empty `start`: the date is the text before the first `T`,
   the time the first five characters of the text between the first and the
   second `T`; the code drops its colons and the display turns them into `h`.
   A `start` without any `T` has no second part: Python raises there, which
   is `None` here.
   */
  function ParseStart(start: string): Option<Slot> {
    if IndexOf(start, 'T') == |start| then None
    else Some(SlotOf(DatePart(start), TimePart(start)))
  }

  /** `start.split("T")[0]`: the text before the first `T`. */
  function DatePart(start: string): string {
    start[..IndexOf(start, 'T')]
  }

  /** `start.split("T")[1][:5]`: at most five characters after the first `T`, up to the second. */
  function TimePart(start: string): string
    requires IndexOf(start, 'T') < |start|
  {
    FirstFiveBeforeT(start[IndexOf(start, 'T') + 1..])
  }

  /** At most the first five characters of the text before the first `T`. */
  function FirstFiveBeforeT(s: string): string {
    var segment := s[..IndexOf(s, 'T')];
    if |segment| <= 5 then segment else segment[..5]
  }

  /** The slot of a date and a time: the code drops the colons, the display turns them into `h`. */
  function SlotOf(date: string, time: string): Slot {
    Slot(date, RemoveChar(time, ':'), ReplaceChar(time, ':', 'h'))
  }

  /** A start is parsed exactly when it holds a `T`. */
  lemma ParseStartNone(start: string)
    ensures ParseStart(start).None? <==> 'T' !in start
  {
  }

  /**
   A start is parsed exactly when it holds a `T`; the date is then the text
   before its first `T`, the code holds no colon and the display at most
   five characters, none of them a `T`.
   */
  lemma ParseStartShape(start: string)
    ensures ParseStart(start).Some? ==>
              var s := ParseStart(start).value;
              && 'T' !in s.date && StartsWith(start, s.date + "T")
              && |s.display| <= 5 && ':' !in s.heure
  {
    var k := IndexOf(start, 'T');
    if k < |start| {
      assert DatePart(start) == start[..k];
      assert start[..k] + "T" == start[..k + 1];
    }
  }

  /** The first `T` of `D T X` is the one after `D` when `D` holds none. */
  lemma FirstT(d: string, x: string)
    requires 'T' !in d
    ensures IndexOf(d + "T" + x, 'T') == |d|
  {
    assert d + "T" + x == d + ("T" + x);
    IndexOfConcat(d, "T" + x, 'T');
  }

  /** A start `D T P ...` whose date `D` and five-character time `P` hold no `T` splits into `D` and `P`. */
  lemma ParseSplitsAtT(d: string, p: string, rest: string)
    requires 'T' !in d && 'T' !in p && |p| == 5
    ensures ParseStart(d + "T" + p + rest) == Some(SlotOf(d, p))
  {
    var start := d + "T" + p + rest;
    assert start == d + "T" + (p + rest);
    FirstT(d, p + rest);
    DatePartOf(d, p + rest);
    TimePartOf(d, p, rest);
  }

  lemma DatePartOf(d: string, x: string)
    requires 'T' !in d
    ensures DatePart(d + "T" + x) == d
  {
    FirstT(d, x);
    assert (d + "T" + x)[..|d|] == d;
  }

  lemma TimePartOf(d: string, p: string, rest: string)
    requires 'T' !in d && 'T' !in p && |p| == 5
    ensures IndexOf(d + "T" + p + rest, 'T') == |d|
    ensures TimePart(d + "T" + p + rest) == p
  {
    var start := d + "T" + p + rest;
    assert start == d + "T" + (p + rest);
    FirstT(d, p + rest);
    assert start[|d| + 1..] == p + rest;
    FirstFiveOf(p, rest);
  }

  lemma FirstFiveOf(p: string, rest: string)
    requires 'T' !in p && |p| == 5
    ensures FirstFiveBeforeT(p + rest) == p
  {
    IndexOfConcat(p, rest, 'T');
    assert (p + rest)[..5 + IndexOf(rest, 'T')][..5] == p;
  }

  /** The time `HH:MM` has display `HHhMM`. */
  lemma TimeDisplay(hh: string, mm: string)
    requires ':' !in hh && ':' !in mm
    ensures ReplaceChar(hh + ":" + mm, ':', 'h') == hh + "h" + mm
  {
  }

  /** The time `HH:MM` has code `HHMM`. */
  lemma TimeCode(hh: string, mm: string)
    requires ':' !in hh && ':' !in mm
    ensures RemoveChar(hh + ":" + mm, ':') == hh + mm
  {
    assert hh + ":" + mm == hh + ([':'] + mm);
    RemoveCharConcat(hh, [':'] + mm, ':');
    RemoveCharHead(':', mm);
    RemoveCharAbsent(hh, ':');
    RemoveCharAbsent(mm, ':');
  }

  /** The documented shape `D T HH:MM ...` yields date `D`, code `HHMM` and display `HHhMM`. */
  lemma ParseWellFormedStart(d: string, hh: string, mm: string, rest: string)
    requires 'T' !in d
    requires |hh| == 2 && |mm| == 2
    requires 'T' !in hh && 'T' !in mm && ':' !in hh && ':' !in mm
    ensures ParseStart(d + "T" + hh + ":" + mm + rest) == Some(Slot(d, hh + mm, hh + "h" + mm))
  {
    var p := hh + ":" + mm;
    assert 'T' !in p;
    assert d + "T" + hh + ":" + mm + rest == d + "T" + p + rest;
    ParseSplitsAtT(d, p, rest);
    TimeCode(hh, mm);
    TimeDisplay(hh, mm);
  }

  /** The code of a well-formed slot, displayed by `formater_heure`, is the slot's own display. */
  lemma SlotCodeFormatsToDisplay(d: string, hh: string, mm: string, rest: string)
    requires 'T' !in d
    requires |hh| == 2 && |mm| == 2
    requires 'T' !in hh && 'T' !in mm && ':' !in hh && ':' !in mm
    ensures var s := ParseStart(d + "T" + hh + ":" + mm + rest).value;
            FormatHour(s.heure) == s.display
  {
    ParseWellFormedStart(d, hh, mm, rest);
    assert (hh + mm)[..2] == hh && (hh + mm)[2..] == mm;
  }

  /** The truthy `start` values of the slots, in order. */
  function Starts(slots: seq<RawSlot>): (r: seq<string>)
    ensures |r| <= |slots|
  {
    if slots == [] then []
    else (if Truthy(slots[0].start) then [slots[0].start.value] else []) + Starts(slots[1..])
  }

  /**
   The starts kept are exactly the non-empty `start` values of the slots:
   each of them is kept, and nothing else is.
   */
  lemma {:induction false} StartsAreTheTruthyStarts(slots: seq<RawSlot>)
    ensures forall j :: 0 <= j < |Starts(slots)| ==> Starts(slots)[j] != ""
    ensures forall i :: 0 <= i < |slots| && Truthy(slots[i].start) ==> slots[i].start.value in Starts(slots)
    ensures forall s :: s in Starts(slots) ==> exists i :: 0 <= i < |slots| && slots[i].start == Some(s)
    decreases |slots|
  {
    if slots != [] {
      StartsAreTheTruthyStarts(slots[1..]);
      assert forall i :: 1 <= i < |slots| ==> slots[i] == slots[1..][i - 1];
      var head := if Truthy(slots[0].start) then [slots[0].start.value] else [];
      assert Starts(slots) == head + Starts(slots[1..]);
      forall s | s in Starts(slots)
        ensures exists i :: 0 <= i < |slots| && slots[i].start == Some(s)
      {
        if s !in head {
          var i :| 0 <= i < |slots[1..]| && slots[1..][i].start == Some(s);
          assert slots[i + 1].start == Some(s);
        }
      }
    }
  }

  /** Keeping the truthy starts distributes over concatenation: their order is the slots' order. */
  lemma {:induction false} StartsConcat(a: seq<RawSlot>, b: seq<RawSlot>)
    ensures Starts(a + b) == Starts(a) + Starts(b)
    decreases |a|
  {
    if a == [] {
      assert a + b == b;
    } else {
      var ab := a + b;
      assert ab[0] == a[0];
      assert ab[1..] == a[1..] + b;
      StartsConcat(a[1..], b);
      var h := if Truthy(a[0].start) then [a[0].start.value] else [];
      assert Starts(ab) == h + (Starts(a[1..]) + Starts(b));
      AppendAssoc(h, Starts(a[1..]), Starts(b));
    }
  }

  /**
   The parsing loop over the non-empty starts: every one is parsed, in order.
   When one of them has no `T` the handler fails and there is no result.
   */
  function ParseAll(starts: seq<string>): (r: Option<seq<Slot>>)
    ensures r.Some? <==> forall j :: 0 <= j < |starts| ==> ParseStart(starts[j]).Some?
    ensures r.Some? ==> |r.value| == |starts|
    ensures r.Some? ==> forall j :: 0 <= j < |starts| ==> ParseStart(starts[j]) == Some(r.value[j])
  {
    if starts == [] then Some([])
    else
      var rest := ParseAll(starts[1..]);
      match ParseStart(starts[0])
      case None => None
      case Some(first) =>
        if rest.None? then
          assert !forall j :: 0 <= j < |starts| ==> ParseStart(starts[j]).Some? by {
            var j :| 0 <= j < |starts[1..]| && ParseStart(starts[1..][j]).None?;
            assert starts[j + 1] == starts[1..][j];
          }
          None
        else
          var r := [first] + rest.value;
          assert forall j :: 0 <= j < |starts| ==> ParseStart(starts[j]) == Some(r[j]) by {
            forall j | 0 <= j < |starts| ensures ParseStart(starts[j]) == Some(r[j]) {
              if j > 0 {
                assert starts[j] == starts[1..][j - 1];
                assert r[j] == rest.value[j - 1];
              }
            }
          }
          Some(r)
  }

  /** The query of `consulter_disponibilites`: both dates in ISO form and the new-patient flag. */
  datatype SlotQuery = SlotQuery(start: string, end: string, newPatient: string)

  /**
   The query parameters. A missing end date defaults to seven days after the
   start; that calendar computation is `sevenDaysLater`, supplied by the caller.
   */
  function QueryFor(dateStart: string, dateEnd: Option<string>, sevenDaysLater: string, newPatient: Option<bool>): (q: SlotQuery)
    ensures q.start == ConvertDate(dateStart)
    ensures Truthy(dateEnd) ==> q.end == ConvertDate(dateEnd.value)
    ensures !Truthy(dateEnd) ==> q.end == sevenDaysLater
    ensures q.newPatient == "1" <==> newPatient == Some(true)
    ensures q.newPatient == "1" || q.newPatient == "0"
  {
    SlotQuery(ConvertDate(dateStart), if Truthy(dateEnd) then ConvertDate(dateEnd.value) else sevenDaysLater,
              NewPatientFlag(newPatient))
  }

  /** The path of the free-slot search for a type of appointment. */
  const SlotsPrefix: string := "/schedules/MC/slots/"

  function SlotsEndpoint(typeRdv: string): string {
    SlotsPrefix + typeRdv + "/"
  }

  /** The response: the parsed slots and their number. */
  datatype Availability = Availability(creneaux: seq<Slot>, count: nat)

  /** `consulter_disponibilites` after the fetch; `None` where the source raises. */
  function AvailabilityOf(reply: SlotsReply): (r: Option<Availability>)
    ensures r.Some? <==> forall j :: 0 <= j < |Starts(SlotsOf(reply))| ==> ParseStart(Starts(SlotsOf(reply))[j]).Some?
    ensures r.Some? ==> r.value.count == |r.value.creneaux| == |Starts(SlotsOf(reply))|
    ensures r.Some? ==> forall j :: 0 <= j < r.value.count ==> ParseStart(Starts(SlotsOf(reply))[j]) == Some(r.value.creneaux[j])
  {
    var starts := Starts(SlotsOf(reply));
    var parsed := ParseAll(starts);
    if parsed.None? then
      assert starts == Starts(SlotsOf(reply));
      None
    else Some(Availability(parsed.value, |parsed.value|))
  }

  /**
   The handler fails exactly when some slot has a non-empty `start` without
   any `T`; slots whose `start` is absent, null or empty never make it fail.
   */
  lemma AvailabilityFailsExactly(reply: SlotsReply)
    ensures AvailabilityOf(reply).None? <==>
              exists i :: 0 <= i < |SlotsOf(reply)| && Truthy(SlotsOf(reply)[i].start) && 'T' !in SlotsOf(reply)[i].start.value
  {
    var slots := SlotsOf(reply);
    var starts := Starts(slots);
    StartsAreTheTruthyStarts(slots);
    if AvailabilityOf(reply).None? {
      var j :| 0 <= j < |starts| && ParseStart(starts[j]).None?;
      ParseStartNone(starts[j]);
      assert starts[j] in starts;
      var i :| 0 <= i < |slots| && slots[i].start == Some(starts[j]);
      assert Truthy(slots[i].start);
    }
    if i :| 0 <= i < |slots| && Truthy(slots[i].start) && 'T' !in slots[i].start.value {
      var s := slots[i].start.value;
      assert s in starts;
      var j :| 0 <= j < |starts| && starts[j] == s;
      ParseStartNone(s);
      assert ParseStart(starts[j]).None?;
    }
  }
}

=== FILE: booking.dfy ===
/**
 `creer_rdv`: the booking call built from a request and the reading of the
 API's answer.
 */
module Booking {
  import opened PyStr
  import opened Normalise
  import opened Records
  import Availability

  /**
   The fields of a booking request, as the handler sees them once the
   request model has filled in its defaults: a missing `nouveau_patient`
   arrives as `Some(true)` here (and as `false` in a slot query), and `None`
   stands for an explicit `null`.
   */
  datatype BookingRequest = BookingRequest(
    typeRdv: string,
    date: string,
    heure: string,
    nom: string,
    prenom: string,
    telephone: string,
    email: Option<string>,
    dateNaissance: Option<string>,
    nouveauPatient: Option<bool>,
    message: Option<string>)

  // ---------------------------------------------------------------- the call

  /** Query parameters as key/value pairs, in the order they are added. */
  type Params = seq<(string, string)>

  /** The value of the first pair with the given key. */
  function Lookup(ps: Params, key: string): Option<string> {
    if ps == [] then None
    else if ps[0].0 == key then Some(ps[0].1)
    else Lookup(ps[1..], key)
  }

  /** Adding a pair at the end only answers keys that were not there yet. */
  lemma {:induction false} LookupAppend(ps: Params, k: string, v: string, key: string)
    ensures Lookup(ps + [(k, v)], key) ==
              if Lookup(ps, key).Some? then Lookup(ps, key) else if k == key then Some(v) else None
    decreases |ps|
  {
    if ps == [] {
      assert ps + [(k, v)] == [(k, v)];
    } else {
      assert (ps + [(k, v)])[0] == ps[0];
      assert (ps + [(k, v)])[1..] == ps[1..] + [(k, v)];
      LookupAppend(ps[1..], k, v, key);
    }
  }

  /** Appends a pair when the value is truthy, as `if value: params[key] = value` does. */
  function AddIfTruthy(ps: Params, key: string, value: Option<string>): Params {
    if Truthy(value) then ps + [(key, value.value)] else ps
  }

  lemma AddIfTruthyLookup(ps: Params, key: string, value: Option<string>, other: string)
    requires Lookup(ps, key).None?
    ensures Lookup(AddIfTruthy(ps, key, value), key) == if Truthy(value) then value else None
    ensures other != key ==> Lookup(AddIfTruthy(ps, key, value), other) == Lookup(ps, other)
  {
    if Truthy(value) {
      LookupAppend(ps, key, value.value, key);
      LookupAppend(ps, key, value.value, other);
    }
  }

  /** The birth date sent: the converted date when one is given, nothing otherwise. */
  function BirthDate(dateNaissance: Option<string>): Option<string> {
    if Truthy(dateNaissance) then Some(ConvertDate(dateNaissance.value)) else None
  }

  /** The four parameters every booking carries. */
  function BaseParams(req: BookingRequest): Params {
    [("firstName", req.prenom), ("lastName", req.nom), ("mobile", NormalisePhone(req.telephone)),
     ("newPatient", NewPatientFlag(req.nouveauPatient))]
  }

  /** The four base parameters answer their own keys and no other. */
  lemma BaseParamsLookup(req: BookingRequest, key: string)
    ensures Lookup(BaseParams(req), key) ==
              if key == "firstName" then Some(req.prenom)
              else if key == "lastName" then Some(req.nom)
              else if key == "mobile" then Some(NormalisePhone(req.telephone))
              else if key == "newPatient" then Some(NewPatientFlag(req.nouveauPatient))
              else None
  {
    var b0 := BaseParams(req);
    var b1 := [("lastName", req.nom), ("mobile", NormalisePhone(req.telephone)), ("newPatient", NewPatientFlag(req.nouveauPatient))];
    var b2 := [("mobile", NormalisePhone(req.telephone)), ("newPatient", NewPatientFlag(req.nouveauPatient))];
    var b3 := [("newPatient", NewPatientFlag(req.nouveauPatient))];
    assert b0[1..] == b1 && b1[1..] == b2 && b2[1..] == b3 && b3[1..] == [];
    assert Lookup(b3, key) == if key == "newPatient" then Some(NewPatientFlag(req.nouveauPatient)) else None;
    assert Lookup(b2, key) == if key == "mobile" then Some(NormalisePhone(req.telephone)) else Lookup(b3, key);
    assert Lookup(b1, key) == if key == "lastName" then Some(req.nom) else Lookup(b2, key);
    assert Lookup(b0, key) == if key == "firstName" then Some(req.prenom) else Lookup(b1, key);
  }

  /** The parameters of the booking call. */
  function BookingParams(req: BookingRequest): Params {
    var withEmail := AddIfTruthy(BaseParams(req), "email", req.email);
    var withBirth := AddIfTruthy(withEmail, "birthDate", BirthDate(req.dateNaissance));
    AddIfTruthy(withBirth, "messagePatient", req.message)
  }

  /** No key occurs twice, so the pairs read as the dictionary the source builds. */
  predicate DistinctKeys(ps: Params) {
    forall i, j :: 0 <= i < j < |ps| ==> ps[i].0 != ps[j].0
  }

  predicate KeyAbsent(ps: Params, key: string) {
    forall i :: 0 <= i < |ps| ==> ps[i].0 != key
  }

  /** Adding a new key keeps the keys distinct and leaves the earlier pairs in place. */
  lemma AddIfTruthyKeys(ps: Params, key: string, value: Option<string>)
    requires DistinctKeys(ps) && KeyAbsent(ps, key)
    ensures var r := AddIfTruthy(ps, key, value);
            && DistinctKeys(r)
            && |ps| <= |r| <= |ps| + 1
            && r[..|ps|] == ps
            && forall i :: |ps| <= i < |r| ==> r[i].0 == key
  {
  }

  /**
   The call sends the four base keys and, after them, only `email`,
   `birthDate` and `messagePatient`, each key at most once.
   */
  lemma BookingParamsKeys(req: BookingRequest)
    ensures var ps := BookingParams(req);
            && 4 <= |ps| <= 7
            && DistinctKeys(ps)
            && forall i :: 4 <= i < |ps| ==> ps[i].0 in ["email", "birthDate", "messagePatient"]
  {
    var base := BaseParams(req);
    assert DistinctKeys(base);
    assert KeyAbsent(base, "email");
    AddIfTruthyKeys(base, "email", req.email);
    var withEmail := AddIfTruthy(base, "email", req.email);
    assert KeyAbsent(withEmail, "birthDate") by {
      forall i | 0 <= i < |withEmail| ensures withEmail[i].0 != "birthDate" {
        if i < 4 { assert withEmail[i] == base[i]; }
      }
    }
    var birth := BirthDate(req.dateNaissance);
    AddIfTruthyKeys(withEmail, "birthDate", birth);
    var withBirth := AddIfTruthy(withEmail, "birthDate", birth);
    assert KeyAbsent(withBirth, "messagePatient") by {
      forall i | 0 <= i < |withBirth| ensures withBirth[i].0 != "messagePatient" {
        if i < |withEmail| {
          assert withBirth[i] == withEmail[i];
          if i < 4 { assert withEmail[i] == base[i]; }
        }
      }
    }
    AddIfTruthyKeys(withBirth, "messagePatient", req.message);
    var ps := AddIfTruthy(withBirth, "messagePatient", req.message);
    forall i | 4 <= i < |ps| ensures ps[i].0 in ["email", "birthDate", "messagePatient"] {
      if i < |withBirth| {
        assert ps[i] == withBirth[i];
        if i < |withEmail| { assert withBirth[i] == withEmail[i]; }
      }
    }
  }

  /** `convertir_date` never turns a non-empty date into an empty one. */
  lemma ConvertDateNonEmpty(s: string)
    requires s != ""
    ensures ConvertDate(s) != ""
  {
  }

  /**
   The call carries the first and last name, the normalised phone number and
   the new-patient flag; the e-mail and the message exactly when they are
   non-empty; and the converted birth date exactly when one is given.
   */
  lemma BookingParamsContents(req: BookingRequest)
    ensures var ps := BookingParams(req);
            && ps[..4] == BaseParams(req)
            && Lookup(ps, "firstName") == Some(req.prenom)
            && Lookup(ps, "lastName") == Some(req.nom)
            && Lookup(ps, "mobile") == Some(NormalisePhone(req.telephone))
            && Lookup(ps, "newPatient") == Some(NewPatientFlag(req.nouveauPatient))
            && Lookup(ps, "email") == (if Truthy(req.email) then req.email else None)
            && Lookup(ps, "messagePatient") == (if Truthy(req.message) then req.message else None)
            && (Truthy(req.dateNaissance) ==> Lookup(ps, "birthDate") == Some(ConvertDate(req.dateNaissance.value)))
            && (!Truthy(req.dateNaissance) ==> Lookup(ps, "birthDate").None?)
            && DistinctKeys(ps)
            && forall i :: 4 <= i < |ps| ==> ps[i].0 in ["email", "birthDate", "messagePatient"]
  {
    BookingParamsKeys(req);
    var base := BaseParams(req);
    var withEmail := AddIfTruthy(base, "email", req.email);
    var birth := BirthDate(req.dateNaissance);
    var withBirth := AddIfTruthy(withEmail, "birthDate", birth);
    if Truthy(req.dateNaissance) {
      ConvertDateNonEmpty(req.dateNaissance.value);
    }
    BaseParamsLookup(req, "firstName");
    BaseParamsLookup(req, "lastName");
    BaseParamsLookup(req, "mobile");
    BaseParamsLookup(req, "newPatient");
    BaseParamsLookup(req, "email");
    BaseParamsLookup(req, "birthDate");
    BaseParamsLookup(req, "messagePatient");
    AddIfTruthyLookup(base, "email", req.email, "firstName");
    AddIfTruthyLookup(base, "email", req.email, "lastName");
    AddIfTruthyLookup(base, "email", req.email, "mobile");
    AddIfTruthyLookup(base, "email", req.email, "newPatient");
    AddIfTruthyLookup(base, "email", req.email, "birthDate");
    AddIfTruthyLookup(base, "email", req.email, "messagePatient");
    AddIfTruthyLookup(withEmail, "birthDate", birth, "firstName");
    AddIfTruthyLookup(withEmail, "birthDate", birth, "lastName");
    AddIfTruthyLookup(withEmail, "birthDate", birth, "mobile");
    AddIfTruthyLookup(withEmail, "birthDate", birth, "newPatient");
    AddIfTruthyLookup(withEmail, "birthDate", birth, "email");
    AddIfTruthyLookup(withEmail, "birthDate", birth, "messagePatient");
    AddIfTruthyLookup(withBirth, "messagePatient", req.message, "firstName");
    AddIfTruthyLookup(withBirth, "messagePatient", req.message, "lastName");
    AddIfTruthyLookup(withBirth, "messagePatient", req.message, "mobile");
    AddIfTruthyLookup(withBirth, "messagePatient", req.message, "newPatient");
    AddIfTruthyLookup(withBirth, "messagePatient", req.message, "email");
    AddIfTruthyLookup(withBirth, "messagePatient", req.message, "birthDate");
  }

  /** The PUT path: the slot search path of the type, then a date and an hour code. */
  function BookingEndpoint(typeRdv: string, date: string, heure: string): string {
    Availability.SlotsEndpoint(typeRdv) + date + "/" + heure + "/"
  }

  /** The PUT path of `creer_rdv`: the request's type, its date after conversion and its raw hour code. */
  function RequestEndpoint(req: BookingRequest): string {
    BookingEndpoint(req.typeRdv, ConvertDate(req.date), req.heure)
  }

  /** Reads a PUT path back into its type, date and hour code. */
  function ParseBookingEndpoint(path: string): Option<(string, string, string)> {
    var prefix := Availability.SlotsPrefix;
    if !StartsWith(path, prefix) then None
    else
      match SplitAt(path[|prefix|..], '/')
      case None => None
      case Some((typeRdv, afterType)) =>
        match SplitAt(afterType, '/')
        case None => None
        case Some((date, afterDate)) =>
          match SplitAt(afterDate, '/')
          case None => None
          case Some((heure, tail)) => if tail == [] then Some((typeRdv, date, heure)) else None
  }

  /** Round trip: a path built from slash-free parts names exactly those parts. */
  lemma BookingEndpointRoundTrip(typeRdv: string, date: string, heure: string)
    requires '/' !in typeRdv && '/' !in date && '/' !in heure
    ensures ParseBookingEndpoint(BookingEndpoint(typeRdv, date, heure)) == Some((typeRdv, date, heure))
  {
    var prefix := Availability.SlotsPrefix;
    var path := BookingEndpoint(typeRdv, date, heure);
    var afterDate := heure + "/";
    var afterType := date + "/" + afterDate;
    var rest := typeRdv + "/" + afterType;
    assert path == prefix + rest;
    assert path[..|prefix|] == prefix && path[|prefix|..] == rest;
    SplitAtJoin(typeRdv, afterType, '/');
    assert afterType == date + ['/'] + afterDate;
    SplitAtJoin(date, afterDate, '/');
    assert afterDate == heure + ['/'] + [];
    SplitAtJoin(heure, [], '/');
  }

  /**
   The path of a request names the converted date, not the date as the caller
   wrote it: a day-first `15/03/2025` reaches the API as `2025-03-15`.
   */
  lemma RequestEndpointNamesConvertedDate(req: BookingRequest)
    requires '/' !in req.typeRdv && '/' !in ConvertDate(req.date) && '/' !in req.heure
    ensures ParseBookingEndpoint(RequestEndpoint(req)) == Some((req.typeRdv, ConvertDate(req.date), req.heure))
  {
    BookingEndpointRoundTrip(req.typeRdv, ConvertDate(req.date), req.heure);
  }

  /** The booking path extends the free-slot search path of the same type. */
  lemma BookingEndpointExtendsSearch(typeRdv: string, date: string, heure: string)
    ensures StartsWith(BookingEndpoint(typeRdv, date, heure), Availability.SlotsEndpoint(typeRdv))
  {
    var e := Availability.SlotsEndpoint(typeRdv);
    assert BookingEndpoint(typeRdv, date, heure) == e + (date + "/" + heure + "/");
  }

  // ---------------------------------------------------------------- the answer

  /**
   The answer of the booking call: the truthiness of `done`, the `rdvId` and
   `idDemande` values and the `busy` message.
   */
  datatype BookingReply = BookingReply(done: bool, rdvId: Option<string>, idDemande: Option<string>, busy: Option<string>)

  const ConfirmedStatus: string := "Confirm\U{E9}"
  const PendingStatus: string := "En attente de confirmation"

  /** What `creer_rdv` answers: the slot was taken, or the appointment was booked. */
  datatype BookingOutcome =
    | SlotTaken
    | Booked(rdvId: Option<string>, statut: string, date: string, heure: string, patient: string)

  /**
   `creer_rdv` after the call: a busy message, or an answer that is neither
   done nor carries an id, means the slot is taken; otherwise the booking is
   reported with the id, the status the `done` flag selects, the converted
   date, the displayed hour and the patient's full name.
   */
  function CreateAppointment(req: BookingRequest, reply: BookingReply): (r: BookingOutcome)
    ensures r.SlotTaken? <==> Truthy(reply.busy) || (!reply.done && !Truthy(reply.rdvId) && !Truthy(reply.idDemande))
    ensures r.Booked? ==> r.statut == (if reply.done then ConfirmedStatus else PendingStatus)
    ensures r.Booked? ==> r.date == ConvertDate(req.date) && r.heure == FormatHour(req.heure)
    ensures r.Booked? ==> r.patient == req.prenom + " " + req.nom
    ensures r.Booked? && Truthy(reply.rdvId) ==> r.rdvId == reply.rdvId
    ensures r.Booked? && !Truthy(reply.rdvId) ==> r.rdvId == reply.idDemande
  {
    var rdvId := Or(reply.rdvId, reply.idDemande);
    if Truthy(reply.busy) || (!reply.done && !Truthy(rdvId)) then SlotTaken
    else
      Booked(rdvId, if reply.done then ConfirmedStatus else PendingStatus,
             ConvertDate(req.date), FormatHour(req.heure), req.prenom + " " + req.nom)
  }

  /** A booking reported as pending always carries a non-empty id. */
  lemma PendingBookingHasId(req: BookingRequest, reply: BookingReply)
    requires CreateAppointment(req, reply).Booked?
    requires CreateAppointment(req, reply).statut == PendingStatus
    ensures Truthy(CreateAppointment(req, reply).rdvId)
  {
    assert ConfirmedStatus != PendingStatus by { assert |ConfirmedStatus| != |PendingStatus|; }
    OrPicksTruthy(reply.rdvId, reply.idDemande);
  }

  /** The hour shown for a booking reads back into the four-character code that was requested. */
  lemma BookedHourReadsBack(req: BookingRequest, reply: BookingReply)
    requires CreateAppointment(req, reply).Booked?
    requires |req.heure| == 4
    ensures UnformatHour(CreateAppointment(req, reply).heure) == req.heure
  {
    FormatHourRoundTrip(req.heure);
  }

  /** A booking requested with an ISO or day-first date is reported with an ISO date. */
  lemma BookedDateIsIso(req: BookingRequest, reply: BookingReply)
    requires CreateAppointment(req, reply).Booked?
    requires IsIsoDate(req.date) || IsDayFirst(req.date, '/') || IsDayFirst(req.date, '-')
    ensures IsIsoDate(CreateAppointment(req, reply).date)
  {
  }
}

=== FILE: cancellation.dfy ===
/**
 The decisions `annuler_rdv` makes around its single cancellation request:
 which requested date to honour, which appointment to cancel, which resource
 path to send the DELETE to, and how to read the API's reply.
 */
module Cancellation {
  import opened PyStr
  import opened Normalise
  import opened Records

  // ---------------------------------------------------------------- requested date

  /** A `date_rdv` the voice agent left as an unfilled template variable. */
  predicate IsPlaceholder(raw: string) {
    StartsWith(raw, "<") || StartsWith(raw, "{")
  }

  /**
   The date the caller asked for: absent when `date_rdv` is missing, empty or
   a placeholder, otherwise the requested date converted by `convertir_date`.
   */
  function TargetDate(dateRaw: Option<string>): (r: Option<string>)
    ensures r.None? <==> !Truthy(dateRaw) || IsPlaceholder(dateRaw.value)
    ensures r.Some? ==> r.value != "" && r.value == ConvertDate(dateRaw.value)
    ensures r.Some? ==> !IsPlaceholder(r.value)
  {
    if !Truthy(dateRaw) || IsPlaceholder(dateRaw.value) then None
    else
      var d := ConvertDate(dateRaw.value);
      assert d != "" by { ConvertDateResult(dateRaw.value); }
      assert !IsPlaceholder(d) by {
        ConvertDateResult(dateRaw.value);
        if IsIsoDate(d) { assert IsDigit(d[..4][0]); }
      }
      Some(d)
  }

  lemma TargetDateExamples()
    ensures TargetDate(None) == None
    ensures TargetDate(Some("")) == None
    ensures TargetDate(Some("<date_rdv>")) == None
    ensures TargetDate(Some("{date_rdv}")) == None
  {
    assert IsPlaceholder("<date_rdv>");
    assert IsPlaceholder("{date_rdv}");
  }

  /** A day-first date asked by the caller is compared in ISO form. */
  lemma TargetDateDayFirst(dateRaw: string)
    requires IsDayFirst(dateRaw, '/') || IsDayFirst(dateRaw, '-')
    ensures TargetDate(Some(dateRaw)).Some?
    ensures IsIsoDate(TargetDate(Some(dateRaw)).value)
  {
    assert !IsPlaceholder(dateRaw) by { assert IsDigit(dateRaw[..2][0]); }
  }

  // ---------------------------------------------------------------- target selection

  /** The status spellings that mark an appointment as cancelled, compared after lower-casing. */
  const CancelledSpellings: seq<string> := ["cancelled", "canceled", "annul\U{E9}", "annule"]

  /** `(statut or "").lower() in statuts_annules`. */
  predicate IsCancelledStatus(statut: Option<string>) {
    Lower(OrEmpty(statut)) in CancelledSpellings
  }

  /** An appointment `annuler_rdv` may cancel: not cancelled, and on the requested date if one was asked. */
  predicate Qualifies(a: Appointment, target: Option<string>) {
    !IsCancelledStatus(a.statut) && (!Truthy(target) || a.date == target)
  }

  /** Position `(p, k)` comes before `(q, j)`: patients in order, then appointments in order. */
  predicate Earlier(p: nat, k: nat, q: nat, j: nat) {
    p < q || (p == q && k < j)
  }

  /** The appointment chosen for cancellation, as its patient's and its own position. */
  datatype Selection = NoTarget | Target(patient: nat, index: nat)

  /**
   The search loop of `annuler_rdv`: `lists[p]` holds the appointments of the
   `p`-th patient found. It picks the first qualifying appointment in
   patient-then-appointment order, or reports that none qualifies.
   */
  method SelectTarget(lists: seq<seq<Appointment>>, target: Option<string>) returns (sel: Selection)
    ensures sel.Target? ==> sel.patient < |lists| && sel.index < |lists[sel.patient]|
    ensures sel.Target? ==> Qualifies(lists[sel.patient][sel.index], target)
    ensures sel.Target? ==> !IsCancelledStatus(lists[sel.patient][sel.index].statut)
    ensures sel.Target? ==>
              forall p, k :: 0 <= p < |lists| && 0 <= k < |lists[p]| && Earlier(p, k, sel.patient, sel.index)
                ==> !Qualifies(lists[p][k], target)
    ensures sel.NoTarget? <==>
              forall p, k :: 0 <= p < |lists| && 0 <= k < |lists[p]| ==> !Qualifies(lists[p][k], target)
  {
    var p := 0;
    while p < |lists|
      invariant 0 <= p <= |lists|
      invariant forall q, j :: 0 <= q < p && 0 <= j < |lists[q]| ==> !Qualifies(lists[q][j], target)
    {
      var k := 0;
      while k < |lists[p]|
        invariant 0 <= k <= |lists[p]|
        invariant forall j :: 0 <= j < k ==> !Qualifies(lists[p][j], target)
      {
        if Qualifies(lists[p][k], target) {
          return Target(p, k);
        }
        k := k + 1;
      }
      p := p + 1;
    }
    return NoTarget;
  }

  /**
   The first qualifying appointment is unique, so the target of
   `annuler_rdv` is determined by the lists and the requested date.
   */
  lemma FirstQualifyingUnique(lists: seq<seq<Appointment>>, target: Option<string>, p1: nat, k1: nat, p2: nat, k2: nat)
    requires p1 < |lists| && k1 < |lists[p1]| && Qualifies(lists[p1][k1], target)
    requires p2 < |lists| && k2 < |lists[p2]| && Qualifies(lists[p2][k2], target)
    requires forall q, j :: 0 <= q < |lists| && 0 <= j < |lists[q]| && Earlier(q, j, p1, k1) ==> !Qualifies(lists[q][j], target)
    requires forall q, j :: 0 <= q < |lists| && 0 <= j < |lists[q]| && Earlier(q, j, p2, k2) ==> !Qualifies(lists[q][j], target)
    ensures p1 == p2 && k1 == k2
  {
  }

  // ---------------------------------------------------------------- resource path

  /** The two kinds of booking the API cancels through different paths. */
  datatype ResourceKind = ConfirmedAppointment | AppointmentRequest

  const AppointmentsPrefix: string := "/schedules/MC/appointments/"
  const RequestsPrefix: string := "/schedules/MC/appointment-requests/"

  /** `rdv_id.upper().startswith("D")`. */
  predicate IsConfirmedId(id: string) {
    |id| > 0 && (id[0] == 'D' || id[0] == 'd')
  }

  function KindOfId(id: string): ResourceKind {
    if IsConfirmedId(id) then ConfirmedAppointment else AppointmentRequest
  }

  function PrefixOf(kind: ResourceKind): string {
    match kind
    case ConfirmedAppointment => AppointmentsPrefix
    case AppointmentRequest => RequestsPrefix
  }

  /** The DELETE path for an appointment id: confirmed appointments for ids starting with `D` or `d`, requests otherwise. */
  function CancelPath(id: string): (path: string)
    ensures IsConfirmedId(id) ==> StartsWith(path, AppointmentsPrefix)
    ensures !IsConfirmedId(id) ==> StartsWith(path, RequestsPrefix)
    ensures path[|path| - 1] == '/'
  {
    PrefixOf(KindOfId(id)) + id + "/"
  }

  /** Reads a DELETE path back into its resource kind and id. */
  function ParseCancelPath(path: string): Option<(ResourceKind, string)> {
    if |path| > |AppointmentsPrefix| && StartsWith(path, AppointmentsPrefix) && path[|path| - 1] == '/' then
      Some((ConfirmedAppointment, path[|AppointmentsPrefix|..|path| - 1]))
    else if |path| > |RequestsPrefix| && StartsWith(path, RequestsPrefix) && path[|path| - 1] == '/' then
      Some((AppointmentRequest, path[|RequestsPrefix|..|path| - 1]))
    else None
  }

  /** The two prefixes cannot be confused: they differ at position 25. */
  lemma PrefixesDiffer()
    ensures AppointmentsPrefix[25] == 's' && RequestsPrefix[25] == '-'
    ensures |AppointmentsPrefix| == 27 && |RequestsPrefix| == 35
  {
  }

  /** Round trip: the path built for an id names exactly that id, under the kind its first letter selects. */
  lemma CancelPathRoundTrip(id: string)
    ensures ParseCancelPath(CancelPath(id)) == Some((KindOfId(id), id))
    ensures KindOfId(id) == ConfirmedAppointment <==> IsConfirmedId(id)
  {
    var path := CancelPath(id);
    var prefix := PrefixOf(KindOfId(id));
    PrefixesDiffer();
    assert path[..|prefix|] == prefix;
    assert path[|prefix|..|path| - 1] == id;
    if !IsConfirmedId(id) {
      assert !StartsWith(path, AppointmentsPrefix) by {
        assert path[25] == RequestsPrefix[25];
        assert AppointmentsPrefix[25] != RequestsPrefix[25];
      }
    }
  }

  // ---------------------------------------------------------------- reply classification

  /**
   The value under the `error` or `Error` key of the reply: absent or null,
   a string, or an object given by its `text` and `message` entries and by
   `entries`, the text between the braces of its Python rendering (empty
   exactly when the object is).
   */
  datatype ErrorValue =
    | NoError
    | ErrorText(value: string)
    | ErrorObject(text: Option<string>, message: Option<string>, entries: string)

  /** The reply to the DELETE: an object with its two error keys, or any other JSON value. */
  datatype CancelReply = ReplyObject(lowerKey: ErrorValue, upperKey: ErrorValue) | ReplyOther

  /** Python truthiness of an error value; an object is truthy unless it is empty. */
  predicate ErrorTruthy(e: ErrorValue) {
    match e
    case NoError => false
    case ErrorText(s) => s != ""
    case ErrorObject(t, m, entries) => t.Some? || m.Some? || entries != ""
  }

  /**
   The error message `annuler_rdv` extracts: `error or Error`, and for an
   object its `text`, else its `message`, else its rendering.
   */
  function ErrorMessage(reply: CancelReply): Option<string> {
    match reply
    case ReplyOther => None
    case ReplyObject(lowerKey, upperKey) =>
      var chosen := if ErrorTruthy(lowerKey) then lowerKey else upperKey;
      match chosen
      case NoError => None
      case ErrorText(s) => Some(s)
      case ErrorObject(t, m, entries) =>
        if Truthy(t) then t else if Truthy(m) then m else Some("{" + entries + "}")
  }

  const AlreadyCancelledPhrase: string := "already cancelled"
  const AlreadyCancelledPhraseFr: string := "d\U{E9}j\U{E0} annul\U{E9}"

  /** The case-insensitive test for "already cancelled" in English or French. */
  predicate SaysAlreadyCancelled(message: string) {
    Contains(Lower(message), AlreadyCancelledPhrase) || Contains(Lower(message), AlreadyCancelledPhraseFr)
  }

  datatype CancelOutcome = Cancelled | AlreadyCancelled | CancelFailed(message: string)

  /** How `annuler_rdv` reads the reply to its DELETE. */
  function Classify(reply: CancelReply): (r: CancelOutcome)
    ensures r.Cancelled? <==> !Truthy(ErrorMessage(reply))
    ensures r.AlreadyCancelled? <==> Truthy(ErrorMessage(reply)) && SaysAlreadyCancelled(ErrorMessage(reply).value)
    ensures r.CancelFailed? ==> r.message == ErrorMessage(reply).value && r.message != ""
  {
    var m := ErrorMessage(reply);
    if Truthy(m) then
      if SaysAlreadyCancelled(m.value) then AlreadyCancelled else CancelFailed(m.value)
    else Cancelled
  }

  /**
   The reply means the cancellation went through exactly when it is not an
   object, or neither key holds a truthy value and `Error` is not an object
   (even an empty object yields the message `{}`).
   */
  lemma CancelledExactly(reply: CancelReply)
    ensures Classify(reply) == Cancelled <==>
              || reply.ReplyOther?
              || (!ErrorTruthy(reply.lowerKey) && !reply.upperKey.ErrorObject? && !ErrorTruthy(reply.upperKey))
  {
  }

  /** A truthy `error` value hides whatever `Error` holds. */
  lemma LowerKeyTakesPrecedence(e: ErrorValue, other: ErrorValue, another: ErrorValue)
    requires ErrorTruthy(e)
    ensures Classify(ReplyObject(e, other)) == Classify(ReplyObject(e, another))
  {
  }

  /** Lower-case leaves a lower-cased string alone, so the test ignores case. */
  lemma ClassifyIgnoresCase(s: string, t: string, other: ErrorValue)
    requires s != "" && t != "" && Lower(s) == Lower(t)
    ensures Classify(ReplyObject(ErrorText(s), other)).AlreadyCancelled?
        <==> Classify(ReplyObject(ErrorText(t), other)).AlreadyCancelled?
  {
  }

  /** An empty `Error` object still counts as an error: its rendering `{}` is the message. */
  lemma EmptyErrorObjectFails()
    ensures Classify(ReplyObject(NoError, ErrorObject(None, None, ""))) == CancelFailed("{}")
  {
    assert !SaysAlreadyCancelled("{}") by {
      assert Lower("{}") == "{}";
      assert !Contains("{}", AlreadyCancelledPhrase) by {
        assert !Contains("}", AlreadyCancelledPhrase);
        assert !Contains("", AlreadyCancelledPhrase);
      }
      assert !Contains("{}", AlreadyCancelledPhraseFr) by {
        assert !Contains("}", AlreadyCancelledPhraseFr);
        assert !Contains("", AlreadyCancelledPhraseFr);
      }
    }
  }

  /** `text` is read before `message`, and either spelling of the phrase in any case is recognised. */
  lemma AlreadyCancelledExamples(s: string, t: string)
    requires s == "Appointment ALREADY Cancelled"
    requires t == "RDV D\U{C9}J\U{C0} ANNUL\U{C9}"
    ensures Classify(ReplyObject(NoError, ErrorObject(Some(s), Some("ignored"), "..."))) == AlreadyCancelled
    ensures Classify(ReplyObject(ErrorText(t), NoError)) == AlreadyCancelled
  {
    assert Lower(s)[12..12 + |AlreadyCancelledPhrase|] == AlreadyCancelledPhrase;
    ContainsAt(Lower(s), AlreadyCancelledPhrase, 12);
    assert Lower(t)[4..4 + |AlreadyCancelledPhraseFr|] == AlreadyCancelledPhraseFr;
    ContainsAt(Lower(t), AlreadyCancelledPhraseFr, 4);
  }

  // ---------------------------------------------------------------- the handler

  datatype CancelResult =
    | NoPatient
    | NoActiveAppointment(date: Option<string>)
    | MissingId(target: Appointment)
    | Attempted(target: Appointment, path: string, outcome: CancelOutcome)
  {
    /** The `success` field of the response. */
    predicate Success() {
      Attempted? && outcome.Cancelled?
    }
  }

  /**
   `annuler_rdv` after the phone number has been normalised and the patients
   and their appointments fetched: `lists[p]` holds the appointments of
   `patients[p]`, and `reply` is the API's answer to the one DELETE sent.
   `MissingId` stands for the source's unhandled case of a chosen record
   without an id, where Python raises and the service answers with a server
   error.
   */
  method CancelAppointment(patients: seq<Patient>, lists: seq<seq<Appointment>>, dateRaw: Option<string>, reply: CancelReply)
    returns (r: CancelResult)
    requires |lists| == |patients|
    ensures r.NoPatient? <==> patients == []
    ensures r.NoActiveAppointment? ==> r.date == TargetDate(dateRaw)
    ensures r.NoActiveAppointment? <==>
              patients != [] &&
              forall p, k :: 0 <= p < |lists| && 0 <= k < |lists[p]| ==> !Qualifies(lists[p][k], TargetDate(dateRaw))
    ensures r.MissingId? || r.Attempted? ==>
              Qualifies(r.target, TargetDate(dateRaw)) && exists p :: 0 <= p < |lists| && r.target in lists[p]
    ensures r.MissingId? || r.Attempted? ==>
              exists p, k :: && 0 <= p < |lists| && 0 <= k < |lists[p]| && r.target == lists[p][k]
                             && forall q, j :: 0 <= q < |lists| && 0 <= j < |lists[q]| && Earlier(q, j, p, k)
                                  ==> !Qualifies(lists[q][j], TargetDate(dateRaw))
    ensures r.MissingId? ==> r.target.id.None?
    ensures r.Attempted? ==> r.target.id.Some? && r.path == CancelPath(r.target.id.value)
    ensures r.Attempted? ==> r.outcome == Classify(reply)
    ensures r.Success() ==> !Truthy(ErrorMessage(reply))
  {
    var target := TargetDate(dateRaw);
    if patients == [] {
      return NoPatient;
    }
    var sel := SelectTarget(lists, target);
    if sel.NoTarget? {
      return NoActiveAppointment(target);
    }
    var chosen := lists[sel.patient][sel.index];
    assert chosen in lists[sel.patient];
    if chosen.id.None? {
      return MissingId(chosen);
    }
    var path := CancelPath(chosen.id.value);
    return Attempted(chosen, path, Classify(reply));
  }
}

=== FILE: normalise.dfy ===
/**
 The three input normalisers of main.py: French phone numbers, day-first dates
 and `HHMM` hour codes. All three are total string functions.
 */
module Normalise {
  import opened PyStr

  // ---------------------------------------------------------------- phone numbers

  /**
   The characters `normaliser_telephone` deletes before looking at prefixes:
   the ASCII characters Python's `\s` matches (space, tab, line feed, vertical
   tab, form feed, carriage return and the separators U+001C to U+001F),
   hyphen, full stop and both parentheses.
   */
  predicate IsSeparator(c: char) {
    c == ' ' || c == '\t' || c == '\n' || c == '\U{B}' || c == '\U{C}' || c == '\r'
    || ('\U{1C}' <= c <= '\U{1F}')
    || c == '-' || c == '.' || c == '(' || c == ')'
  }

  predicate NoSeparators(s: string) {
    forall i :: 0 <= i < |s| ==> !IsSeparator(s[i])
  }

  /** Deletes every separator and keeps every other character, in order. */
  function StripSeparators(s: string): string {
    if s == [] then []
    else (if IsSeparator(s[0]) then [] else [s[0]]) + StripSeparators(s[1..])
  }

  /**
   The stripped string is no longer than the input and holds no separator;
   an input without separators comes back unchanged.
   */
  lemma {:induction false} StripRemovesSeparators(s: string)
    ensures |StripSeparators(s)| <= |s|
    ensures NoSeparators(StripSeparators(s))
    ensures NoSeparators(s) ==> StripSeparators(s) == s
    decreases |s|
  {
    if s != [] {
      StripRemovesSeparators(s[1..]);
      assert s == [s[0]] + s[1..];
    }
  }

  /** Stripping keeps every non-separator character as often as the input has it. */
  lemma {:induction false} StripKeepsContent(s: string)
    ensures forall c :: !IsSeparator(c) ==> multiset(StripSeparators(s))[c] == multiset(s)[c]
    ensures forall c :: IsSeparator(c) ==> multiset(StripSeparators(s))[c] == 0
    decreases |s|
  {
    if s != [] {
      StripKeepsContent(s[1..]);
      assert s == [s[0]] + s[1..];
      var r := StripSeparators(s[1..]);
      if !IsSeparator(s[0]) {
        assert StripSeparators(s) == [s[0]] + r;
      }
    }
  }

  /** Stripping distributes over concatenation, so it acts on each character alone. */
  lemma {:induction false} StripConcat(a: string, b: string)
    ensures StripSeparators(a + b) == StripSeparators(a) + StripSeparators(b)
    decreases |a|
  {
    if a == [] {
      assert a + b == b;
    } else {
      assert (a + b)[1..] == a[1..] + b;
      StripConcat(a[1..], b);
    }
  }

  /** The French international prefixes and the number they are rewritten to. */
  function RewritePrefix(t: string): string {
    if StartsWith(t, "+33") then "0" + t[3..]
    else if StartsWith(t, "0033") then "0" + t[4..]
    else if StartsWith(t, "33") && |t| > 10 then "0" + t[2..]
    else t
  }

  /**
   `normaliser_telephone`: an empty input is returned as it is; otherwise the
   separators are deleted and a leading `+33`, `0033`, or `33` on a stripped
   number longer than ten characters, becomes a single `0`.
   */
  function NormalisePhone(telephone: string): (r: string)
    ensures telephone == "" ==> r == ""
    ensures NoSeparators(r)
    ensures |r| <= |telephone|
  {
    StripRemovesSeparators(telephone);
    if telephone == "" then telephone
    else RewritePrefix(StripSeparators(telephone))
  }

  /**
   The normaliser strips first and then only looks at the stripped number, so
   separators anywhere in the input make no difference to the result.
   */
  lemma NormaliseIgnoresSeparators(s: string)
    ensures NormalisePhone(s) == NormalisePhone(StripSeparators(s))
  {
    StripRemovesSeparators(s);
    StripRemovesSeparators(StripSeparators(s));
  }

  /** A national number: no separators, a leading `0`, and not an `00` prefix. */
  predicate IsNational(s: string) {
    NoSeparators(s) && |s| >= 1 && s[0] == '0' && !(|s| >= 2 && s[1] == '0')
  }

  /** National numbers are fixed points of the normaliser. */
  lemma NationalIsFixed(s: string)
    requires IsNational(s)
    ensures NormalisePhone(s) == s
  {
    StripRemovesSeparators(s);
    assert !StartsWith(s, "+33") && !StartsWith(s, "33") && !StartsWith(s, "0033") by {
      assert s[0] == '0';
    }
  }

  /** A number written with separators whose digits form a national number comes out as those digits. */
  lemma SeparatedNationalIsStripped(s: string)
    requires IsNational(StripSeparators(s))
    ensures NormalisePhone(s) == StripSeparators(s)
  {
    NormaliseIgnoresSeparators(s);
    NationalIsFixed(StripSeparators(s));
  }

  /**
   A number whose stripped form has none of the three French prefixes (a
   foreign `+32…` or `0044…` number, or a number missing its leading `0`)
   comes out as its stripped form.
   */
  lemma UnprefixedIsStripped(s: string)
    requires var t := StripSeparators(s);
      !StartsWith(t, "+33") && !StartsWith(t, "0033") && !(StartsWith(t, "33") && |t| > 10)
    ensures NormalisePhone(s) == StripSeparators(s)
  {
    NormaliseIgnoresSeparators(s);
  }

  /**
   Normalising twice is the same as normalising once whenever the first pass
   produced a national number or nothing at all.
   */
  lemma NormaliseIdempotentOnNational(telephone: string)
    requires var r := NormalisePhone(telephone); r == "" || IsNational(r)
    ensures NormalisePhone(NormalisePhone(telephone)) == NormalisePhone(telephone)
  {
    var r := NormalisePhone(telephone);
    if r != "" {
      NationalIsFixed(r);
    }
  }

  /**
   Why idempotence needs the precondition above: `+33` followed by `033`
   loses one prefix per pass, so a second pass changes the number again.
   */
  lemma NormaliseNotIdempotent(d: string)
    requires NoSeparators(d)
    ensures NormalisePhone("+33033" + d) == "0033" + d
    ensures NormalisePhone(NormalisePhone("+33033" + d)) == "0" + d
    ensures NormalisePhone(NormalisePhone("+33033" + d)) != NormalisePhone("+33033" + d)
  {
    NoSeparatorsConcat("033", d);
    NoSeparatorsConcat("+33", "033" + d);
    assert "+33" + ("033" + d) == "+33033" + d;
    StripRemovesSeparators("+33033" + d);
    PlusPrefixRewritten("+33033" + d, "033" + d);
    assert "0" + ("033" + d) == "0033" + d;
    NoSeparatorsConcat("0033", d);
    StripRemovesSeparators("0033" + d);
    DoubleZeroPrefixRewritten("0033" + d, d);
  }

  /** A number that starts with `0` and then a non-zero digit is not rewritten. */
  lemma RewriteKeepsNational(t: string)
    requires |t| >= 2 && t[0] == '0' && t[1] != '0'
    ensures RewritePrefix(t) == t
  {
    assert !StartsWith(t, "+33") && !StartsWith(t, "33") && !StartsWith(t, "0033") by {
      assert t[..2][0] == '0' && t[..2][1] != '0';
    }
  }

  lemma NoSeparatorsConcat(a: string, b: string)
    requires NoSeparators(a) && NoSeparators(b)
    ensures NoSeparators(a + b)
  {
    forall i | 0 <= i < |a + b| ensures !IsSeparator((a + b)[i]) {
      if i >= |a| { assert (a + b)[i] == b[i - |a|]; }
    }
  }

  /** A number whose stripped form is `+33` and a rest becomes `0` and that rest. */
  lemma PlusPrefixRewritten(s: string, d: string)
    requires NoSeparators(d) && StripSeparators(s) == "+33" + d
    ensures NormalisePhone(s) == "0" + d
  {
    NormaliseIgnoresSeparators(s);
    NoSeparatorsConcat("+33", d);
    StripRemovesSeparators("+33" + d);
    assert ("+33" + d)[..3] == "+33" && ("+33" + d)[3..] == d;
  }

  /** A number whose stripped form is `0033` and a rest becomes `0` and that rest. */
  lemma DoubleZeroPrefixRewritten(s: string, d: string)
    requires NoSeparators(d) && StripSeparators(s) == "0033" + d
    ensures NormalisePhone(s) == "0" + d
  {
    NormaliseIgnoresSeparators(s);
    NoSeparatorsConcat("0033", d);
    StripRemovesSeparators("0033" + d);
    assert ("0033" + d)[..4] == "0033" && ("0033" + d)[4..] == d;
    assert ("0033" + d)[..3] != "+33" by { assert ("0033" + d)[0] == '0'; }
  }

  /**
   A number whose stripped form is a bare `33` and a rest loses the `33` only
   when the stripped number is longer than ten characters.
   */
  lemma BarePrefixRewritten(s: string, d: string)
    requires NoSeparators(d) && StripSeparators(s) == "33" + d
    ensures |d| >= 9 ==> NormalisePhone(s) == "0" + d
    ensures |d| < 9 ==> NormalisePhone(s) == "33" + d
  {
    NormaliseIgnoresSeparators(s);
    NoSeparatorsConcat("33", d);
    StripRemovesSeparators("33" + d);
    assert ("33" + d)[..2] == "33" && ("33" + d)[2..] == d;
    assert ("33" + d)[0] == '3';
    assert |"33" + d| >= 3 ==> ("33" + d)[..3] != "+33";
    assert |"33" + d| >= 4 ==> ("33" + d)[..4] != "0033";
  }

  // ---------------------------------------------------------------- dates

  predicate IsDigit(c: char) {
    '0' <= c <= '9'
  }

  predicate AllDigits(s: string) {
    forall i :: 0 <= i < |s| ==> IsDigit(s[i])
  }

  /** `^\d{4}-\d{2}-\d{2}$`, with ASCII digits. */
  predicate IsIsoDate(s: string) {
    |s| == 10 && AllDigits(s[..4]) && s[4] == '-' && AllDigits(s[5..7]) && s[7] == '-' && AllDigits(s[8..])
  }

  /** `^\d{2}<sep>\d{2}<sep>\d{4}$`, with ASCII digits: day, month, year. */
  predicate IsDayFirst(s: string, sep: char) {
    |s| == 10 && AllDigits(s[..2]) && s[2] == sep && AllDigits(s[3..5]) && s[5] == sep && AllDigits(s[6..])
  }

  /**
   `convertir_date`: ISO input is kept, `DD/MM/YYYY` and `DD-MM-YYYY` are
   reordered into `YYYY-MM-DD` with the same digits, and anything else
   (the empty string included) is returned unchanged.
   */
  function ConvertDate(s: string): (r: string)
    ensures IsIsoDate(s) ==> r == s
    ensures IsDayFirst(s, '/') || IsDayFirst(s, '-') ==>
              IsIsoDate(r) && r[..4] == s[6..] && r[5..7] == s[3..5] && r[8..] == s[..2]
    ensures !IsIsoDate(s) && !IsDayFirst(s, '/') && !IsDayFirst(s, '-') ==> r == s
  {
    if s == "" then s
    else if IsIsoDate(s) then s
    else if IsDayFirst(s, '/') then s[6..] + "-" + s[3..5] + "-" + s[..2]
    else if IsDayFirst(s, '-') then s[6..] + "-" + s[3..5] + "-" + s[..2]
    else s
  }

  /** Every output of `convertir_date` is either an ISO date or its own input. */
  lemma ConvertDateResult(s: string)
    ensures IsIsoDate(ConvertDate(s)) || ConvertDate(s) == s
  {
  }

  /** `convertir_date` is idempotent on every input. */
  lemma ConvertDateIdempotent(s: string)
    ensures ConvertDate(ConvertDate(s)) == ConvertDate(s)
  {
    ConvertDateResult(s);
  }

  /** Writes an ISO date day first, with the given separator. */
  function DayFirst(iso: string, sep: char): (r: string)
    requires IsIsoDate(iso)
    ensures IsDayFirst(r, sep)
  {
    iso[8..] + [sep] + iso[5..7] + [sep] + iso[..4]
  }

  /** Round trip: converting a day-first rendering of an ISO date gives that date back. */
  lemma ConvertDateRoundTrip(iso: string, sep: char)
    requires IsIsoDate(iso)
    requires sep == '/' || sep == '-'
    ensures ConvertDate(DayFirst(iso, sep)) == iso
  {
    var d := DayFirst(iso, sep);
    assert !IsIsoDate(d) by {
      assert d[2] == sep;
      assert AllDigits(d[..4]) ==> IsDigit(d[2]);
    }
    var r := ConvertDate(d);
    assert r == iso by {
      assert r[..4] == d[6..] == iso[..4];
      assert r[5..7] == d[3..5] == iso[5..7];
      assert r[8..] == d[..2] == iso[8..];
      assert r[4] == '-' == iso[4];
      assert r[7] == '-' == iso[7];
      assert |r| == |iso|;
      forall i | 0 <= i < 10 ensures r[i] == iso[i] {
        if i < 4 { assert r[i] == r[..4][i]; }
        else if 5 <= i < 7 { assert r[i] == r[5..7][i - 5]; }
        else if 8 <= i { assert r[i] == r[8..][i - 8]; }
      }
    }
  }

  // ---------------------------------------------------------------- hours

  /** `formater_heure`: a four-character code `abcd` becomes `abhcd`; any other length is kept. */
  function FormatHour(heure: string): (r: string)
    ensures |heure| == 4 ==> |r| == 5 && r[2] == 'h' && r[..2] == heure[..2] && r[3..] == heure[2..]
    ensures |heure| != 4 ==> r == heure
  {
    if |heure| == 4 then heure[..2] + "h" + heure[2..] else heure
  }

  /** Reads a display hour `abhcd` back into its code `abcd`. */
  function UnformatHour(display: string): string {
    if |display| == 5 && display[2] == 'h' then display[..2] + display[3..] else display
  }

  /** Round trip: every four-character code survives formatting then reading back. */
  lemma FormatHourRoundTrip(heure: string)
    requires |heure| == 4
    ensures UnformatHour(FormatHour(heure)) == heure
  {
    var r := FormatHour(heure);
    assert r[..2] + r[3..] == heure[..2] + heure[2..];
    assert heure[..2] + heure[2..] == heure;
  }

  /** Formatting an already formatted hour changes nothing. */
  lemma FormatHourIdempotent(heure: string)
    ensures FormatHour(FormatHour(heure)) == FormatHour(heure)
  {
  }
}

=== FILE: normalise_examples.dfy ===
/**
 The examples documented on the normalisers of main.py, checked against the
 model. Each example takes its input as a parameter fixed by `requires`, which
 keeps the verifier from unrolling the recursive definitions on long literals.
 */
module NormaliseExamples {
  import opened Normalise

  /** The prefix rules for a number written without separators. */
  lemma PlusPrefixUnseparated(d: string)
    requires NoSeparators(d)
    ensures NormalisePhone("+33" + d) == "0" + d
  {
    NoSeparatorsConcat("+33", d);
    StripRemovesSeparators("+33" + d);
    PlusPrefixRewritten("+33" + d, d);
  }

  lemma DoubleZeroPrefixUnseparated(d: string)
    requires NoSeparators(d)
    ensures NormalisePhone("0033" + d) == "0" + d
  {
    NoSeparatorsConcat("0033", d);
    StripRemovesSeparators("0033" + d);
    DoubleZeroPrefixRewritten("0033" + d, d);
  }

  /** `+33683791443` gives `0683791443`. */
  lemma PhoneExampleInternational(s: string)
    requires s == "+33683791443"
    ensures NormalisePhone(s) == "0683791443"
  {
    PlusPrefixUnseparated("683791443");
    assert s == "+33" + "683791443";
  }

  /** `0033683791443` gives `0683791443`. */
  lemma PhoneExampleDoubleZero(s: string)
    requires s == "0033683791443"
    ensures NormalisePhone(s) == "0683791443"
  {
    DoubleZeroPrefixUnseparated("683791443");
    assert s == "0033" + "683791443";
  }

  /** Stripping a two-character group followed by one separator keeps the two characters. */
  lemma StripGroup(x: string, y: string)
    requires |x| == 3 && !IsSeparator(x[0]) && !IsSeparator(x[1]) && IsSeparator(x[2])
    ensures StripSeparators(x + y) == x[..2] + StripSeparators(y)
  {
    StripConcat(x, y);
    assert x == [x[0]] + [x[1]] + [x[2]];
    StripConcat([x[0]] + [x[1]], [x[2]]);
    StripConcat([x[0]], [x[1]]);
  }

  /** Characters the separator set leaves alone. */
  predicate Kept(s: string, i: nat)
    requires i < |s|
  {
    !IsSeparator(s[i])
  }

  /** A number written as five groups of two separated by spaces strips to the ten characters. */
  lemma StripFiveGroups(s: string)
    requires |s| == 14 && s[2] == ' ' && s[5] == ' ' && s[8] == ' ' && s[11] == ' '
    requires Kept(s, 0) && Kept(s, 1) && Kept(s, 3) && Kept(s, 4) && Kept(s, 6)
    requires Kept(s, 7) && Kept(s, 9) && Kept(s, 10) && Kept(s, 12) && Kept(s, 13)
    ensures StripSeparators(s) == s[..2] + s[3..5] + s[6..8] + s[9..11] + s[12..]
  {
    var t := s[12..];
    assert StripSeparators(t) == t by {
      StripRemovesSeparators(t);
    }
    var u := s[9..];
    assert StripSeparators(u) == s[9..11] + t by {
      assert u == s[9..12] + t;
      StripGroup(s[9..12], t);
    }
    var v := s[6..];
    assert StripSeparators(v) == s[6..8] + (s[9..11] + t) by {
      assert v == s[6..9] + u;
      StripGroup(s[6..9], u);
    }
    var w := s[3..];
    assert StripSeparators(w) == s[3..5] + (s[6..8] + (s[9..11] + t)) by {
      assert w == s[3..6] + v;
      StripGroup(s[3..6], v);
    }
    assert StripSeparators(s) == s[..2] + (s[3..5] + (s[6..8] + (s[9..11] + t))) by {
      assert s == s[..3] + w;
      StripGroup(s[..3], w);
    }
  }

  /** `06 83 79 14 43` gives `0683791443`. */
  lemma PhoneExampleSpaced(s: string)
    requires s == "06 83 79 14 43"
    ensures NormalisePhone(s) == "0683791443"
  {
    StripFiveGroups(s);
    assert s[..2] + s[3..5] + s[6..8] + s[9..11] + s[12..] == "0683791443";
    RewriteKeepsNational("0683791443");
  }

  /** `0683791443` is already normal. */
  lemma PhoneExampleNational(s: string)
    requires s == "0683791443"
    ensures NormalisePhone(s) == "0683791443"
  {
    NationalIsFixed(s);
  }

  /** Both day-first spellings of 15 March 2025 become `2025-03-15`. */
  lemma DateExampleSlash(s: string)
    requires s == "15/03/2025"
    ensures ConvertDate(s) == "2025-03-15"
  {
    assert IsDayFirst(s, '/');
    assert s[6..] == "2025" && s[3..5] == "03" && s[..2] == "15";
  }

  lemma DateExampleDash(s: string)
    requires s == "15-03-2025"
    ensures ConvertDate(s) == "2025-03-15"
  {
    assert !IsIsoDate(s) by { assert s[4] == '3'; }
    assert IsDayFirst(s, '-');
    assert s[6..] == "2025" && s[3..5] == "03" && s[..2] == "15";
  }

  /** ISO dates and free text pass through. */
  lemma DateExampleUnchanged(iso: string, text: string)
    requires iso == "2025-03-15" && text == "demain"
    ensures ConvertDate(iso) == iso
    ensures ConvertDate(text) == text
  {
    assert IsIsoDate(iso);
  }

  /** `0930` is displayed as `09h30`. */
  lemma HourExample(h: string)
    requires h == "0930"
    ensures FormatHour(h) == "09h30"
  {
    assert h[..2] == "09" && h[2..] == "30";
  }
}

=== FILE: pystr.dfy ===
/**
 The small part of Python's value semantics that the handlers of main.py lean on:
 optional values (a missing key or `None`), truthiness of strings, the `a or b`
 fallback, `str.lower()`, prefix and substring tests, and single-character
 replacement.
 */
module PyStr {

  /**
   A value that may be absent: Python's `None`, which is also what `.get`
   gives for a missing key of a reply. A request field that is left out takes
   its declared default before the handler runs, so there `None` is an
   explicit `null`.
   */
  datatype Option<+T> = None | Some(value: T)

  /** Python truthiness of an optional string: `None` and `""` are both falsy. */
  predicate Truthy(v: Option<string>) {
    v.Some? && v.value != ""
  }

  /** Python's `a or b` on optional strings: `a` when it is truthy, otherwise `b`. */
  function Or(a: Option<string>, b: Option<string>): Option<string> {
    if Truthy(a) then a else b
  }

  /** `(v or "")`: the string of a truthy value, otherwise the empty string. */
  function OrEmpty(v: Option<string>): string {
    if Truthy(v) then v.value else ""
  }

  lemma OrPicksTruthy(a: Option<string>, b: Option<string>)
    ensures Truthy(Or(a, b)) <==> Truthy(a) || Truthy(b)
    ensures Truthy(a) ==> Or(a, b) == a
    ensures !Truthy(a) ==> Or(a, b) == b
  {
  }

  /**
   `str.lower()` on one character. Modelled: the ASCII capitals and the
   Latin-1 capitals U+00C0..U+00DE except the multiplication sign U+00D7,
   each of which Python maps 32 code points up. Every other character is
   kept as is.
   */
  function LowerChar(c: char): char {
    if IsUpper(c) then (c as int + 32) as char else c
  }

  /** The capitals `LowerChar` maps down. */
  predicate IsUpper(c: char) {
    'A' <= c <= 'Z' || ('\U{C0}' <= c <= '\U{DE}' && c != '\U{D7}')
  }

  /** `str.lower()`, character by character. */
  function Lower(s: string): (r: string)
    ensures |r| == |s|
    ensures forall i :: 0 <= i < |s| ==> r[i] == LowerChar(s[i])
    ensures forall i :: 0 <= i < |r| ==> !IsUpper(r[i])
  {
    seq(|s|, i requires 0 <= i < |s| => LowerChar(s[i]))
  }

  /** Lower-casing an already lower-cased string changes nothing. */
  lemma LowerIdempotent(s: string)
    ensures Lower(Lower(s)) == Lower(s)
  {
  }

  /** `s.startswith(p)`. */
  predicate StartsWith(s: string, p: string) {
    |p| <= |s| && s[..|p|] == p
  }

  /** `sub in s` for strings: some window of `s` equals `sub`. */
  predicate Contains(s: string, sub: string)
    decreases |s|
  {
    StartsWith(s, sub) || (|s| > 0 && Contains(s[1..], sub))
  }

  /** The recursive substring test agrees with "some window of `s` equals `sub`". */
  lemma {:induction false} ContainsAt(s: string, sub: string, i: nat)
    requires i + |sub| <= |s| && s[i..i + |sub|] == sub
    ensures Contains(s, sub)
    decreases i
  {
    if i == 0 {
      assert s[..|sub|] == sub;
    } else {
      assert s[1..][i - 1..i - 1 + |sub|] == s[i..i + |sub|];
      ContainsAt(s[1..], sub, i - 1);
    }
  }

  /** `s.replace(c, "")` for a single character `c`. */
  function RemoveChar(s: string, c: char): (r: string)
    ensures |r| <= |s|
    ensures c !in r
  {
    if s == [] then []
    else (if s[0] == c then [] else [s[0]]) + RemoveChar(s[1..], c)
  }

  /** `s.replace(c, [d])` for single characters `c` and `d`. */
  function ReplaceChar(s: string, c: char, d: char): string {
    seq(|s|, i requires 0 <= i < |s| => if s[i] == c then d else s[i])
  }

  /** The index of the first `c` in `s`, or `|s|` when there is none. */
  function IndexOf(s: string, c: char): (k: nat)
    ensures k <= |s|
    ensures k < |s| ==> s[k] == c
    ensures forall j :: 0 <= j < k ==> s[j] != c
    ensures k == |s| <==> c !in s
  {
    if s == [] then 0
    else if s[0] == c then 0
    else 1 + IndexOf(s[1..], c)
  }

  /** Deleting a character acts on each part of a concatenation separately. */
  lemma {:induction false} RemoveCharConcat(a: string, b: string, c: char)
    ensures RemoveChar(a + b, c) == RemoveChar(a, c) + RemoveChar(b, c)
    decreases |a|
  {
    if a == [] {
      assert a + b == b;
    } else {
      var ab := a + b;
      assert ab[0] == a[0];
      assert ab[1..] == a[1..] + b;
      RemoveCharConcat(a[1..], b, c);
      var h := if a[0] == c then [] else [a[0]];
      assert RemoveChar(ab, c) == h + (RemoveChar(a[1..], c) + RemoveChar(b, c));
      AppendAssoc(h, RemoveChar(a[1..], c), RemoveChar(b, c));
    }
  }

  lemma AppendAssoc<T>(a: seq<T>, b: seq<T>, c: seq<T>)
    ensures a + (b + c) == (a + b) + c
  {
  }

  lemma RemoveCharHead(c: char, s: string)
    ensures RemoveChar([c] + s, c) == RemoveChar(s, c)
  {
    var t := [c] + s;
    assert t[0] == c && t[1..] == s;
  }

  /** Deleting a character the string does not hold changes nothing. */
  lemma {:induction false} RemoveCharAbsent(s: string, c: char)
    requires c !in s
    ensures RemoveChar(s, c) == s
    decreases |s|
  {
    if s != [] {
      assert s == [s[0]] + s[1..];
      RemoveCharAbsent(s[1..], c);
    }
  }

  /** The first `c` of `a + b` lies in `b` when `a` holds none. */
  lemma {:induction false} IndexOfConcat(a: string, b: string, c: char)
    requires c !in a
    ensures IndexOf(a + b, c) == |a| + IndexOf(b, c)
    decreases |a|
  {
    if a != [] {
      var ab := a + b;
      assert ab[0] == a[0];
      assert ab[1..] == a[1..] + b;
      IndexOfConcat(a[1..], b, c);
    } else {
      assert a + b == b;
    }
  }

  /**
   Splits at the first `c`: the text before it and everything after it, or
   `None` when `s` holds no `c`. Unlike Python's `split`, the second part
   keeps any later `c`.
   */
  function SplitAt(s: string, c: char): Option<(string, string)> {
    var i := IndexOf(s, c);
    if i == |s| then None else Some((s[..i], s[i + 1..]))
  }

  /** Splitting `a c b` at `c` gives back `a` and `b` when `a` holds no `c`. */
  lemma SplitAtJoin(a: string, b: string, c: char)
    requires c !in a
    ensures SplitAt(a + [c] + b, c) == Some((a, b))
  {
    var s := a + [c] + b;
    assert s == a + ([c] + b);
    IndexOfConcat(a, [c] + b, c);
    assert s[..|a|] == a;
    assert s[|a| + 1..] == b;
  }
}

=== FILE: records.dfy ===
/**
 The records main.py reads from the booking API and the projections it makes of
 them: patients found by phone number (`trouver_patients_par_telephone`) and a
 patient's appointments (`trouver_rdvs_patient`). Replies of the API are inputs
 here; fetching them is not modelled.
 */
module Records {
  import opened PyStr

  // ---------------------------------------------------------------- patients

  /** One entry of the `Patients` array of a patient search reply. */
  datatype RawPatient = RawPatient(
    identifier: Option<string>,
    id: Option<string>,
    lastName: Option<string>,
    family: Option<string>,
    firstName: Option<string>,
    given: Option<string>)

  /** The reply of a patient search: an object with a `Patients` array, or anything else. */
  datatype FindReply = WithPatients(patients: seq<RawPatient>) | WithoutPatients

  /** A patient as the handlers use it: always carries a non-empty id. */
  datatype Patient = Patient(id: string, nom: Option<string>, prenom: Option<string>)

  /** `identifier or id`. */
  function RawPatientId(p: RawPatient): Option<string> {
    Or(p.identifier, p.id)
  }

  predicate HasId(p: RawPatient) {
    Truthy(RawPatientId(p))
  }

  /** The projection of one entry: id, then `lastName or family`, then `firstName or given`. */
  function ProjectPatient(p: RawPatient): (r: Patient)
    requires HasId(p)
    ensures r.id != ""
    ensures Truthy(p.identifier) ==> Some(r.id) == p.identifier
    ensures !Truthy(p.identifier) ==> Some(r.id) == p.id
    ensures Truthy(p.lastName) ==> r.nom == p.lastName
    ensures !Truthy(p.lastName) ==> r.nom == p.family
    ensures Truthy(p.firstName) ==> r.prenom == p.firstName
    ensures !Truthy(p.firstName) ==> r.prenom == p.given
  {
    Patient(RawPatientId(p).value, Or(p.lastName, p.family), Or(p.firstName, p.given))
  }

  /**
   The patients of a search reply, in reply order: entries without a truthy
   id are dropped, every other entry is projected.
   */
  function KeepIdentified(ps: seq<RawPatient>): (r: seq<Patient>)
    ensures |r| <= |ps|
    ensures forall k :: 0 <= k < |r| ==> r[k].id != ""
    ensures forall k :: 0 <= k < |r| ==> exists i :: 0 <= i < |ps| && HasId(ps[i]) && r[k] == ProjectPatient(ps[i])
    ensures forall i :: 0 <= i < |ps| && HasId(ps[i]) ==> ProjectPatient(ps[i]) in r
  {
    if ps == [] then []
    else
      var rest := KeepIdentified(ps[1..]);
      var head := if HasId(ps[0]) then [ProjectPatient(ps[0])] else [];
      assert forall i :: 1 <= i < |ps| ==> ps[i] == ps[1..][i - 1];
      head + rest
  }

  /** Keeping identified entries distributes over concatenation: order is preserved. */
  lemma {:induction false} KeepIdentifiedConcat(a: seq<RawPatient>, b: seq<RawPatient>)
    ensures KeepIdentified(a + b) == KeepIdentified(a) + KeepIdentified(b)
    decreases |a|
  {
    if a == [] {
      assert a + b == b;
    } else {
      assert (a + b)[1..] == a[1..] + b;
      KeepIdentifiedConcat(a[1..], b);
    }
  }

  /** `trouver_patients_par_telephone` after the search: the identified patients, or none. */
  function PatientsOf(reply: FindReply): (r: seq<Patient>)
    ensures reply.WithoutPatients? ==> r == []
    ensures reply.WithPatients? ==> |r| <= |reply.patients|
    ensures forall k :: 0 <= k < |r| ==> r[k].id != ""
    ensures reply.WithPatients? ==>
              forall i :: 0 <= i < |reply.patients| && HasId(reply.patients[i]) ==> ProjectPatient(reply.patients[i]) in r
  {
    match reply
    case WithPatients(ps) => KeepIdentified(ps)
    case WithoutPatients => []
  }

  // ---------------------------------------------------------------- appointments

  /** A key of a JSON object that may be absent, present with `null`, or present with a value. */
  datatype Field<T> = Missing | Null | Present(value: T)

  /** The `service_type` key: absent, an object with an optional `display`, or some other value. */
  datatype ServiceType = NoServiceType | ServiceObject(display: Option<string>) | ServiceOther

  /** One entry of the array returned for a patient's appointments. */
  datatype RawAppointment = RawAppointment(
    rdvId: Option<string>,
    id: Option<string>,
    date: Option<string>,
    start: Option<string>,
    hour: Option<string>,
    serviceType: ServiceType,
    kind: Option<string>,
    duration: Option<int>,
    status: Field<string>)

  /** The reply listing a patient's appointments: an array, or anything else. */
  datatype AppointmentsReply = AppointmentArray(items: seq<RawAppointment>) | NotAnArray

  /** An appointment as the handlers use it. */
  datatype Appointment = Appointment(
    id: Option<string>,
    patientId: string,
    date: Option<string>,
    heure: Option<string>,
    kind: Option<string>,
    durationMinutes: Option<int>,
    statut: Option<string>)

  /** The status a record without a `status` key is given. */
  const DefaultStatus: string := "Confirm\U{E9}"

  /**
   The status of a record: its `status` value, `None` for an explicit null,
   and "Confirmé" when the key is absent.
   */
  function StatusOf(f: Field<string>): Option<string> {
    match f
    case Missing => Some(DefaultStatus)
    case Null => None
    case Present(v) => Some(v)
  }

  /**
   The type label: the `display` of a `service_type` object (an absent key
   counts as an empty object), otherwise the record's own `type`.
   */
  function KindOf(a: RawAppointment): Option<string> {
    match a.serviceType
    case NoServiceType => None
    case ServiceObject(d) => d
    case ServiceOther => a.kind
  }

  /** The projection of one appointment of patient `patientId`. */
  function ProjectAppointment(patientId: string, a: RawAppointment): Appointment {
    Appointment(Or(a.rdvId, a.id), patientId, a.date, Or(a.start, a.hour), KindOf(a), a.duration, StatusOf(a.status))
  }

  /**
   `trouver_rdvs_patient` after the fetch: one projected record per array
   entry, in order, all attributed to `patientId`; a reply that is not an
   array gives none.
   */
  function AppointmentsOf(patientId: string, reply: AppointmentsReply): (r: seq<Appointment>)
    ensures reply.NotAnArray? ==> r == []
    ensures reply.AppointmentArray? ==> |r| == |reply.items|
    ensures reply.AppointmentArray? ==>
              forall i :: 0 <= i < |r| ==> r[i] == ProjectAppointment(patientId, reply.items[i])
    ensures forall i :: 0 <= i < |r| ==> r[i].patientId == patientId
  {
    match reply
    case AppointmentArray(items) => seq(|items|, i requires 0 <= i < |items| => ProjectAppointment(patientId, items[i]))
    case NotAnArray => []
  }

  /**
   Every field of the projection: a record without a `status` key reads as
   confirmed and one with an explicit null has no status at all; `rdvId`
   wins over `id` and `start` over `hour`; the type is the `display` of a
   `service_type` object, nothing when the key is absent, and the record's
   own `type` when `service_type` is some other value.
   */
  lemma ProjectionFields(patientId: string, a: RawAppointment)
    ensures var r := ProjectAppointment(patientId, a);
            && r.patientId == patientId
            && (a.status.Missing? ==> r.statut == Some("Confirm\U{E9}"))
            && (a.status.Null? ==> r.statut.None?)
            && (a.status.Present? ==> r.statut == Some(a.status.value))
            && (Truthy(a.rdvId) ==> r.id == a.rdvId)
            && (!Truthy(a.rdvId) ==> r.id == a.id)
            && r.date == a.date
            && r.durationMinutes == a.duration
            && (Truthy(a.start) ==> r.heure == a.start)
            && (!Truthy(a.start) ==> r.heure == a.hour)
            && (a.serviceType.NoServiceType? ==> r.kind.None?)
            && (a.serviceType.ServiceObject? ==> r.kind == a.serviceType.display)
            && (a.serviceType.ServiceOther? ==> r.kind == a.kind)
  {
  }

  // ---------------------------------------------------------------- requests

  /** The `newPatient` query value: "1" for a true flag, "0" for false and for null. */
  function NewPatientFlag(flag: Option<bool>): string {
    if flag == Some(true) then "1" else "0"
  }
}

=== FILE: suggestion.dfy ===
/**
 `suggerer_type_rdv`: picks an appointment type for a free-text reason by
 keyword matching, falling back to a general consultation and then to the
 first type offered.
 */
module Suggestion {
  import opened PyStr

  /** One appointment type as listed by the schedule: code, name, duration, new-patient restriction. */
  datatype AppointmentType = AppointmentType(
    code: Option<string>,
    nom: Option<string>,
    dureeMinutes: Option<int>,
    nouveauPatientOnly: bool)

  /** A category of care: its key and the keywords that call for it. */
  datatype Mapping = Mapping(key: string, keywords: seq<string>)

  /** The categories, in the order they are tried. */
  const Mappings: seq<Mapping> := [
    Mapping("urgence", ["urgence", "douleur", "mal", "cass\U{E9}", "abc\U{E8}s", "gonflement", "saigne"]),
    Mapping("detartrage", ["d\U{E9}tartrage", "detartrage", "nettoyage", "tartre", "hygi\U{E8}ne"]),
    Mapping("consultation", ["consultation", "contr\U{F4}le", "visite", "check", "bilan", "nouveau patient", "premi\U{E8}re visite"]),
    Mapping("extraction", ["extraction", "arracher", "enlever dent", "retirer"]),
    Mapping("couronne", ["couronne", "proth\U{E8}se", "bridge"]),
    Mapping("implant", ["implant"]),
    Mapping("blanchiment", ["blanchiment", "blanchir", "\U{E9}claircissement"]),
    Mapping("carie", ["carie", "cavit\U{E9}", "trou"]),
    Mapping("devitalisation", ["d\U{E9}vitalisation", "devitalisation", "canal", "racine"])
  ]

  /** The lower-cased name of a type, empty when it has none. */
  function NameOf(t: AppointmentType): string {
    Lower(OrEmpty(t.nom))
  }

  /** `any(kw in s for kw in keywords)`. */
  function AnyContained(keywords: seq<string>, s: string): (r: bool)
    ensures r <==> exists j :: 0 <= j < |keywords| && Contains(s, keywords[j])
  {
    if keywords == [] then false
    else
      var rest := AnyContained(keywords[1..], s);
      assert forall j :: 1 <= j < |keywords| ==> keywords[j] == keywords[1..][j - 1];
      Contains(s, keywords[0]) || rest
  }

  /** The reason mentions one of the category's keywords. */
  predicate Fires(mapping: Mapping, motifLower: string) {
    AnyContained(mapping.keywords, motifLower)
  }

  /** The type's name mentions the category's key or one of its keywords. */
  predicate Suits(mapping: Mapping, t: AppointmentType) {
    Contains(NameOf(t), mapping.key) || AnyContained(mapping.keywords, NameOf(t))
  }

  /** Category `m` of the table fires for the reason and type `i` suits it. */
  predicate Hit(mappings: seq<Mapping>, motifLower: string, types: seq<AppointmentType>, m: int, i: int) {
    0 <= m < |mappings| && 0 <= i < |types| && Fires(mappings[m], motifLower) && Suits(mappings[m], types[i])
  }

  /** The hit the nested search stops at: the first category that has one, and its first suiting type. */
  predicate FirstHit(mappings: seq<Mapping>, motifLower: string, types: seq<AppointmentType>, m: int, i: int) {
    && Hit(mappings, motifLower, types, m, i)
    && (forall m', i' :: 0 <= m' < m && 0 <= i' < |types| ==> !Hit(mappings, motifLower, types, m', i'))
    && (forall i' :: 0 <= i' < i ==> !Hit(mappings, motifLower, types, m, i'))
  }

  /** A general type: its name mentions a consultation, a visit or an examination. */
  predicate IsGeneral(t: AppointmentType) {
    var n := NameOf(t);
    Contains(n, "consultation") || Contains(n, "visite") || Contains(n, "examen")
  }

  predicate FirstGeneral(types: seq<AppointmentType>, i: int) {
    0 <= i < |types| && IsGeneral(types[i]) && forall i' :: 0 <= i' < i ==> !IsGeneral(types[i'])
  }

  /**
   The search of `suggerer_type_rdv` for a table of categories. With some
   hit, the answer is the type of the first hit; with none, the first general
   type; failing that, the first type. There is no answer exactly when no
   type is offered.
   */
  method SuggestWith(mappings: seq<Mapping>, motifLower: string, types: seq<AppointmentType>) returns (r: Option<AppointmentType>)
    ensures r.Some? <==> types != []
    ensures (exists m, i :: Hit(mappings, motifLower, types, m, i)) ==>
              exists m, i :: FirstHit(mappings, motifLower, types, m, i) && r == Some(types[i])
    ensures (forall m, i :: !Hit(mappings, motifLower, types, m, i)) && types != [] ==>
              (exists i :: FirstGeneral(types, i) && r == Some(types[i]))
              || ((forall i :: 0 <= i < |types| ==> !IsGeneral(types[i])) && r == Some(types[0]))
  {
    r := None;
    var chosenM, chosenI := 0, 0;
    var m := 0;
    while m < |mappings| && r.None?
      invariant 0 <= m <= |mappings|
      invariant r.None? ==> forall m', i' :: 0 <= m' < m && 0 <= i' < |types| ==> !Hit(mappings, motifLower, types, m', i')
      invariant r.Some? ==> FirstHit(mappings, motifLower, types, chosenM, chosenI) && r == Some(types[chosenI])
    {
      if AnyContained(mappings[m].keywords, motifLower) {
        var i := 0;
        while i < |types|
          invariant 0 <= i <= |types|
          invariant r.None?
          invariant forall i' :: 0 <= i' < i ==> !Hit(mappings, motifLower, types, m, i')
        {
          if Suits(mappings[m], types[i]) {
            r := Some(types[i]);
            chosenM, chosenI := m, i;
            break;
          }
          i := i + 1;
        }
      }
      m := m + 1;
    }
    if r.None? && types != [] {
      var i := 0;
      while i < |types|
        invariant 0 <= i <= |types|
        invariant r.None?
        invariant forall i' :: 0 <= i' < i ==> !IsGeneral(types[i'])
      {
        var n := NameOf(types[i]);
        if Contains(n, "consultation") || Contains(n, "visite") || Contains(n, "examen") {
          r := Some(types[i]);
          chosenI := i;
          break;
        }
        i := i + 1;
      }
      if r.None? {
        r := Some(types[0]);
      } else {
        assert FirstGeneral(types, chosenI);
      }
    }
  }

  /** `suggerer_type_rdv` after the type listing: the search above with the reason lower-cased and the fixed table. */
  method SuggestType(motif: string, types: seq<AppointmentType>) returns (r: Option<AppointmentType>)
    ensures r.Some? <==> types != []
    ensures (exists m, i :: Hit(Mappings, Lower(motif), types, m, i)) ==>
              exists m, i :: FirstHit(Mappings, Lower(motif), types, m, i) && r == Some(types[i])
    ensures (forall m, i :: !Hit(Mappings, Lower(motif), types, m, i)) && types != [] ==>
              (exists i :: FirstGeneral(types, i) && r == Some(types[i]))
              || ((forall i :: 0 <= i < |types| ==> !IsGeneral(types[i])) && r == Some(types[0]))
  {
    var motifLower := if motif == "" then "" else Lower(motif);
    assert motifLower == Lower(motif);
    r := SuggestWith(Mappings, motifLower, types);
  }

  /** At most one hit is the first: the answer of the keyword search is determined. */
  lemma FirstHitUnique(mappings: seq<Mapping>, motifLower: string, types: seq<AppointmentType>, m1: int, i1: int, m2: int, i2: int)
    requires FirstHit(mappings, motifLower, types, m1, i1) && FirstHit(mappings, motifLower, types, m2, i2)
    ensures m1 == m2 && i1 == i2
  {
  }

  /** At most one type is the first general one. */
  lemma FirstGeneralUnique(types: seq<AppointmentType>, i1: int, i2: int)
    requires FirstGeneral(types, i1) && FirstGeneral(types, i2)
    ensures i1 == i2
  {
  }

  /** A name mentioning a keyword of a category suits that category, whatever the key. */
  lemma KeywordNameSuits(mapping: Mapping, t: AppointmentType, j: int)
    requires 0 <= j < |mapping.keywords| && Contains(NameOf(t), mapping.keywords[j])
    ensures Suits(mapping, t)
  {
  }

  /**
   A reason that mentions an urgency keyword, with a type suiting the urgency
   category, is answered with the first such type: urgency outranks every
   other category.
   */
  lemma UrgencyOutranks(motifLower: string, types: seq<AppointmentType>, i: int)
    requires Fires(Mappings[0], motifLower)
    requires 0 <= i < |types| && Suits(Mappings[0], types[i])
    requires forall i' :: 0 <= i' < i ==> !Suits(Mappings[0], types[i'])
    ensures FirstHit(Mappings, motifLower, types, 0, i)
  {
  }

  /** Every category of the table lists its own key among its keywords. */
  lemma KeyIsKeyword(m: int)
    requires 0 <= m < |Mappings|
    ensures Mappings[m].key in Mappings[m].keywords
  {
  }

  /**
   So the key test of the search adds nothing: with the fixed table a type
   suits a category exactly when its name mentions one of the keywords.
   */
  lemma SuitsByKeywordsAlone(m: int, t: AppointmentType)
    requires 0 <= m < |Mappings|
    ensures Suits(Mappings[m], t) <==> AnyContained(Mappings[m].keywords, NameOf(t))
  {
    KeyIsKeyword(m);
    var j :| 0 <= j < |Mappings[m].keywords| && Mappings[m].keywords[j] == Mappings[m].key;
  }
}

=== FILE: viewing.dfy ===
/**
 `voir_rdv`: the appointments of every patient found for a phone number,
 restricted to those whose status is exactly "active".
 */
module Viewing {
  import opened PyStr
  import opened Records
  import Cancellation

  /** The four fields `voir_rdv` shows of an appointment. */
  datatype AppointmentView = AppointmentView(id: Option<string>, date: Option<string>, heure: Option<string>, kind: Option<string>)

  datatype ViewResult = NoPatientFound | Upcoming(rdvs: seq<AppointmentView>, count: nat)

  /** The filter of `voir_rdv`: the status must equal "active", case included. */
  predicate IsActive(a: Appointment) {
    a.statut == Some("active")
  }

  /** The appointments of all patients, patient after patient. */
  function Flatten(lists: seq<seq<Appointment>>): (r: seq<Appointment>)
    ensures forall a :: a in r <==> exists p :: 0 <= p < |lists| && a in lists[p]
  {
    if lists == [] then []
    else
      var rest := Flatten(lists[1..]);
      assert forall p :: 1 <= p < |lists| ==> lists[p] == lists[1..][p - 1];
      lists[0] + rest
  }

  /** Collecting distributes over concatenation: patient after patient, each list kept whole and in order. */
  lemma {:induction false} FlattenConcat(a: seq<seq<Appointment>>, b: seq<seq<Appointment>>)
    ensures Flatten(a + b) == Flatten(a) + Flatten(b)
    decreases |a|
  {
    if a == [] {
      assert a + b == b;
    } else {
      assert (a + b)[0] == a[0];
      assert (a + b)[1..] == a[1..] + b;
      FlattenConcat(a[1..], b);
      AppendAssoc(a[0], Flatten(a[1..]), Flatten(b));
    }
  }

  /** One patient's list is collected as it is, duplicates included. */
  lemma FlattenSingleton(l: seq<Appointment>)
    ensures Flatten([l]) == l
  {
    assert [l][1..] == [];
  }

  /** The active appointments, in their original order. */
  function ActiveOnly(rdvs: seq<Appointment>): (r: seq<Appointment>)
    ensures |r| <= |rdvs|
    ensures forall a :: a in r <==> a in rdvs && IsActive(a)
  {
    if rdvs == [] then []
    else (if IsActive(rdvs[0]) then [rdvs[0]] else []) + ActiveOnly(rdvs[1..])
  }

  /** Filtering distributes over concatenation, so it keeps the order of what it keeps. */
  lemma {:induction false} ActiveOnlyConcat(a: seq<Appointment>, b: seq<Appointment>)
    ensures ActiveOnly(a + b) == ActiveOnly(a) + ActiveOnly(b)
    decreases |a|
  {
    if a == [] {
      assert a + b == b;
    } else {
      assert (a + b)[1..] == a[1..] + b;
      ActiveOnlyConcat(a[1..], b);
    }
  }

  function View(a: Appointment): AppointmentView {
    AppointmentView(a.id, a.date, a.heure, a.kind)
  }

  /**
   `voir_rdv` after the fetches: `lists[p]` holds the appointments of
   `patients[p]`. No patient gives the "no patient" answer; otherwise every
   active appointment is shown, in order, and the count is the number shown.
   */
  function ViewAppointments(patients: seq<Patient>, lists: seq<seq<Appointment>>): (r: ViewResult)
    requires |lists| == |patients|
    ensures r.NoPatientFound? <==> patients == []
    ensures r.Upcoming? ==> r.count == |r.rdvs|
    ensures r.Upcoming? ==>
              forall v :: v in r.rdvs <==> exists a :: a in Flatten(lists) && IsActive(a) && v == View(a)
    ensures r.Upcoming? ==>
              && |r.rdvs| == |ActiveOnly(Flatten(lists))|
              && forall i :: 0 <= i < |r.rdvs| ==> r.rdvs[i] == View(ActiveOnly(Flatten(lists))[i])
  {
    if patients == [] then NoPatientFound
    else
      var active := ActiveOnly(Flatten(lists));
      var shown := seq(|active|, i requires 0 <= i < |active| => View(active[i]));
      assert forall v :: v in shown ==> exists a :: a in active && v == View(a);
      assert forall a :: a in active ==> View(a) in shown by {
        forall a | a in active ensures View(a) in shown {
          var i :| 0 <= i < |active| && active[i] == a;
          assert shown[i] == View(a);
        }
      }
      Upcoming(shown, |shown|)
  }

  /**
   The listing for several patients is the listing for the first ones
   followed by the listing for the rest: patients in order, and each
   patient's appointments in their own order.
   */
  lemma ListedInPatientOrder(a: seq<seq<Appointment>>, b: seq<seq<Appointment>>)
    ensures ActiveOnly(Flatten(a + b)) == ActiveOnly(Flatten(a)) + ActiveOnly(Flatten(b))
  {
    FlattenConcat(a, b);
    ActiveOnlyConcat(Flatten(a), Flatten(b));
  }

  /** Every appointment `voir_rdv` lists is one `annuler_rdv` would accept when no date is given. */
  lemma ActiveQualifiesForCancellation(a: Appointment)
    requires IsActive(a)
    ensures Cancellation.Qualifies(a, None)
  {
    assert Lower("active") == "active";
  }

  /**
   So when `voir_rdv` lists at least one appointment, `annuler_rdv` without a
   date finds something to cancel.
   */
  lemma ListedImpliesCancellable(patients: seq<Patient>, lists: seq<seq<Appointment>>)
    requires |lists| == |patients|
    requires ViewAppointments(patients, lists).Upcoming? && ViewAppointments(patients, lists).count > 0
    ensures exists p, k :: 0 <= p < |lists| && 0 <= k < |lists[p]| && Cancellation.Qualifies(lists[p][k], None)
  {
    var r := ViewAppointments(patients, lists);
    var v := r.rdvs[0];
    assert v in r.rdvs;
    var a :| a in Flatten(lists) && IsActive(a) && v == View(a);
    var p :| 0 <= p < |lists| && a in lists[p];
    var k :| 0 <= k < |lists[p]| && lists[p][k] == a;
    ActiveQualifiesForCancellation(a);
  }

  /**
   The two handlers disagree on records without a `status` key: such a
   record reads as "Confirmé", which `voir_rdv` does not list but
   `annuler_rdv` does cancel.
   */
  lemma DefaultStatusHiddenButCancellable(patientId: string, raw: RawAppointment)
    requires raw.status.Missing?
    ensures !IsActive(ProjectAppointment(patientId, raw))
    ensures Cancellation.Qualifies(ProjectAppointment(patientId, raw), None)
  {
    var lowered := Lower(DefaultStatus);
    assert lowered[7] == '\U{E9}';
    assert lowered !in Cancellation.CancelledSpellings by {
      assert |lowered| == 8;
      assert lowered != "canceled" by { assert lowered[0] == 'c' && lowered[1] == 'o'; }
    }
  }
}
